=== FILE: README.md ===
# Gaze-to-action pipeline of `com.qali.vision`, modelled in Dafny

The app moves an on-screen cursor with the eyes. One camera frame's face landmarks
go through four steps:

1. **Landmark geometry** (`EyeTracker.trackEyes`) computes several values from the
   landmarks:
   - eye regions: the 80 % inset of each eye's bounding box;
   - eyelid extents;
   - pupil estimates;
   - a gaze point: one eye, or a 60/40 blend of pupils and regions;
   - a distance proxy in [0, 1];
   - the position-effect inputs.
2. **Position mapping** (`TrackingCalculator.calculateAdjustedPosition`) turns those
   inputs into a screen coordinate. Each axis is an affine map around the screen
   centre, amplified by range, distance and movement multipliers, then clamped to
   the screen.
3. **Blink gesture detection** (`EyeBlinkDetector`) is a state machine fed with
   eyelid positions. Its state is:
   - a calibration baseline;
   - a history of at most 5 samples from the last 500 ms;
   - a 250 ms tap cooldown;
   - an Idle / HalfBlinking mode.

   It emits Tap, DragStart and DragEnd.
4. **Cursor dispatch** (`MouseControlService`) is an accessibility service. It:
   - throttles, smooths and dead-zones cursor moves;
   - dispatches single-point strokes, or drag strokes from the drag origin;
   - clicks at the cursor;
   - keeps a process-wide pending position, which it replays when the service
     connects.

Each step is a Dafny module over immutable datatypes and pure functions. The files are:

| file | module |
|---|---|
| `common.dfy` | `Common` |
| `eye_tracker.dfy` | `EyeTracker` |
| `tracking_calculator.dfy` | `TrackingCalculator` |
| `eye_blink_detector.dfy` | `EyeBlinkDetector` |
| `mouse_control_service.dfy` | `MouseControlService` |

Kotlin `Float` is `real`; `Long` and `Int` are `int`; nullable values are
`Common.Option`; `coerceIn` is `Common.Clamp`.

The wall clock (`System.currentTimeMillis()`) becomes a `now` parameter. So does the
"accessibility service enabled" lookup, as an `enabled` parameter. Each
`dispatchGesture` call becomes an emitted `Stroke` value: its path points and its
duration.

The blink detector and the service are also modelled over whole input streams
(`EyeBlinkDetector.Run`, `MouseControlService.Run`). This lets properties about
sequences of calls be stated and proved. `MouseControlService.Step` and `Run` use the
corrected connection replay (`Connect`, see Findings), so the run lemmas about the
service (`PendingIsLastRequest`, `StepKeepsServiceOk`, `RunDispatchesOnlyOnScreen`)
describe the corrected service. `StepAsWritten` is the step with the replay as written.

The model follows the code at these points, where a reader might expect otherwise:

- The position-effect inputs (`eyePositionX/Y`) are not always the both-eye average.
  When regions or pupils are missing, they fall back through a fixed chain of
  single-eye values, then the gaze point, then 0.5. The contract of `EyeTracker.EyePosition`
  states the chain. `EyeTracker.PositionEffectIgnoresOneEye` proves the chain still
  does not depend on the one-eye setting.
- The result's `combinedCenter` is the gaze point, not the combined region centre.
- The combined eyelid landmarks are computed and then dropped. The result carries
  only the per-eye ones.
- The dead zone suppresses a move only when the change is below one pixel on each
  axis separately. It is not a test on the total movement.
- A quick blink (openness 1.0, 0.5, 0.9, 100 ms apart) is not a tap with the default
  thresholds. The half close already satisfies the drag-start rule, and the drag
  start records the action time. The reopening 100 ms later therefore falls inside
  the tap cooldown and ends the drag instead (`EyeBlinkDetector.QuickBlinkReadsAsDrag`).
  With the reopening 250 ms after the half close, the same blink does tap
  (`EyeBlinkDetector.TapScenario`).

## Model

| member | source | states |
|---|---|---|
| `Common.Clamp` | app/src/main/kotlin/com/qali/vision/managers/EyeBlinkDetector.kt:34 | `coerceIn(lo, hi)` lies in [lo, hi]. It is the identity inside the range, lo below it and hi above it. |
| `Common.ClampMonotone` | app/src/main/kotlin/com/qali/vision/managers/TrackingCalculator.kt:45-46 | Clamping never reorders two values. |
| `Common.MinOf` | app/src/main/kotlin/com/qali/vision/managers/EyeTracker.kt:92 | `minOf` is an element of the list and no larger than any element. |
| `Common.MaxOf` | app/src/main/kotlin/com/qali/vision/managers/EyeTracker.kt:93 | `maxOf` is an element of the list and no smaller than any element. |
| `Common.SumBounds` | app/src/main/kotlin/com/qali/vision/managers/EyeTracker.kt:142-143 | A sum of n values in [lo, hi] lies in [n·lo, n·hi]. Proved by induction. |
| `Common.MeanBounds` | app/src/main/kotlin/com/qali/vision/managers/EyeTracker.kt:142-143 | The mean of values all within [lo, hi] lies within [lo, hi]. |
| `Common.Mean` | app/src/main/kotlin/com/qali/vision/managers/EyeTracker.kt:142-143 | `average()` of a non-empty list is the value whose count-fold is the list's sum. |
| `Common.MeanWithin` | app/src/main/kotlin/com/qali/vision/managers/EyeTracker.kt:142-143 | `average()` of a non-empty list lies between its minimum and maximum. |
| `EyeTracker.GetOrNull` | app/src/main/kotlin/com/qali/vision/managers/EyeTracker.kt:86 | `getOrNull` is present exactly for an in-range index, and then it is that landmark. |
| `EyeTracker.Resolve` | app/src/main/kotlin/com/qali/vision/managers/EyeTracker.kt:85-87 | Resolving an index list is empty exactly when no index is in range. Every in-range index contributes its landmark. Every resolved point is the landmark of some in-range listed index, and there are no more points than indices. |
| `EyeTracker.ResolveAppend` | app/src/main/kotlin/com/qali/vision/managers/EyeTracker.kt:85-87 | Resolving a concatenated index list is resolving each part and concatenating. So the surviving landmarks keep list order and multiplicity, whichever indices are skipped. |
| `EyeTracker.ResolveAllInRange` | app/src/main/kotlin/com/qali/vision/managers/EyeTracker.kt:85-87 | When every listed index is in range, the resolved points are exactly the indexed landmarks, one per index, in list order. |
| `EyeTracker.BoundsOf` | app/src/main/kotlin/com/qali/vision/managers/EyeTracker.kt:92-95 | The box holds every point, and each of its four sides is attained by some point. |
| `EyeTracker.InsetRegion` | app/src/main/kotlin/com/qali/vision/managers/EyeTracker.kt:100-109 | The inset rectangle of a box is centred on the box centre. It is 0.8 of the box in width and height, and lies inside the box. |
| `EyeTracker.CalculateEyeRegion` | app/src/main/kotlin/com/qali/vision/managers/EyeTracker.kt:79-121 | None exactly when no listed index is in range. Otherwise: the centre is the box midpoint; width and height are 0.8 of the box; `right−left = width`; the rectangle is centred; it lies inside the box. |
| `EyeTracker.ExtractEyelidLandmarks` | app/src/main/kotlin/com/qali/vision/managers/EyeTracker.kt:150-173 | None exactly when nothing resolves. Otherwise the upper lid is the least Y and the lower lid the greatest Y of the resolved points, so upper ≤ lower. |
| `EyeTracker.EyelidsSpanRegion` | app/src/main/kotlin/com/qali/vision/managers/EyeTracker.kt:83-95 | Region and eyelids exist together. The region's vertical extent lies within the lid span. |
| `EyeTracker.Centroid` | app/src/main/kotlin/com/qali/vision/managers/EyeTracker.kt:142-144 | On each axis the centroid is the sum of the contour's coordinates divided by the number of points. It lies inside the contour's bounding box. |
| `EyeTracker.GetPupilPosition` | app/src/main/kotlin/com/qali/vision/managers/EyeTracker.kt:127-145 | The dedicated landmark when its index exists. Otherwise the contour centroid, inside the contour's box, or none exactly when no contour index resolves. |
| `EyeTracker.MissingPupilMeansMissingRegion` | app/src/main/kotlin/com/qali/vision/managers/EyeTracker.kt:133-140 | A missing pupil estimate implies a missing region and missing eyelids for that eye. |
| `EyeTracker.Blend` | app/src/main/kotlin/com/qali/vision/managers/EyeTracker.kt:218-227 | On each axis the blend lies 60 % of the way from the region centre to the pupil centre: `g − regions = 0.6·(pupils − regions)`. So it lies between the two, and is a fixed point when they coincide. |
| `EyeTracker.CombinedCenter` | app/src/main/kotlin/com/qali/vision/managers/EyeTracker.kt:191-208 | Absent only when both regions are absent. One-eye mode prefers the right region. Two-eye mode takes the midpoint of both centres, or whichever exists. |
| `EyeTracker.FinalPoint` | app/src/main/kotlin/com/qali/vision/managers/EyeTracker.kt:211-236 | One-eye mode takes the right pupil, else the left pupil, else the combined centre. Two-eye mode with both pupils blends 60 % pupil midpoint and 40 % combined centre. |
| `EyeTracker.EyeArea` | app/src/main/kotlin/com/qali/vision/managers/EyeTracker.kt:241-250 | Two regions give the mean of their width·height areas, which lies between the two areas. One region gives its own area; none gives 0. The area is non-negative for well-formed regions. |
| `EyeTracker.DistanceProxy` | app/src/main/kotlin/com/qali/vision/managers/EyeTracker.kt:254-259 | The proxy lies in [0, 1]. It is 0 for area ≤ 0 or area ≥ 0.01, and strictly inside (0, 1) in between. For 0 < area ≤ 0.01 it is the shortfall of the area below 0.01, as a fraction of 0.01. |
| `EyeTracker.DistanceProxyExample` | app/src/main/kotlin/com/qali/vision/managers/EyeTracker.kt:254-259 | An area of 0.0025 gives 0.75; an area of 0.02 gives 0. |
| `EyeTracker.DistanceProxyAntitone` | app/src/main/kotlin/com/qali/vision/managers/EyeTracker.kt:255-256 | A larger eye area never gives a larger distance proxy, over the positive areas. |
| `EyeTracker.BaseScreen` | app/src/main/kotlin/com/qali/vision/managers/EyeTracker.kt:297-307 | The screen centre without a gaze point. With one, the coordinate divided by the screen size gives back the gaze coordinate; gaze 0 maps to 0 and gaze 1 to the full size; a normalized gaze coordinate maps into [0, size]. |
| `EyeTracker.CombinedEyelids` | app/src/main/kotlin/com/qali/vision/managers/EyeTracker.kt:310-326 | Absent only when both eyes' lids are absent. One-eye mode takes the right eye's lids, else the left's. Two-eye mode averages the upper and the lower lids of both eyes, else takes whichever eye has lids. It keeps upper ≤ lower. |
| `EyeTracker.TrackEyes` | app/src/main/kotlin/com/qali/vision/managers/EyeTracker.kt:178-340 | The distance proxy is in [0, 1], and 0 without regions. Base screen is the centre without a gaze point. Each eye's region exists exactly when its eyelids do. The eyelid values themselves are stated by `TrackEyesComposition`. |
| `EyeTracker.TrackEyesComposition` | app/src/main/kotlin/com/qali/vision/managers/EyeTracker.kt:178-339 | Each eye's region and eyelid landmarks are that eye's `calculateEyeRegion` and `extractEyelidLandmarks`. The result's `combinedCenter` is the gaze point of the pupils and the combined region centre. The base screen coordinates scale that gaze point. The distance proxy is taken of the regions' mean area. The position-effect inputs come from the fallback chain. |
| `EyeTracker.EyePosition` | app/src/main/kotlin/com/qali/vision/managers/EyeTracker.kt:264-294 | The position-effect input follows the chain both regions → both pupils → left region → right region → left pupil → right pupil → gaze point → 0.5. |
| `EyeTracker.EyePositionIgnoresGaze` | app/src/main/kotlin/com/qali/vision/managers/EyeTracker.kt:264-294 | The gaze point, the last fallback, changes a position-effect input only when no pupil and no region exists. |
| `EyeTracker.DistanceIgnoresOneEye` | app/src/main/kotlin/com/qali/vision/managers/EyeTracker.kt:239-259 | The distance proxy is the same in one-eye and two-eye mode. |
| `EyeTracker.PositionEffectIgnoresOneEye` | app/src/main/kotlin/com/qali/vision/managers/EyeTracker.kt:261-294 | Both position-effect inputs are the same in one-eye and two-eye mode. |
| `EyeTracker.GazePointNeedsAPupil` | app/src/main/kotlin/com/qali/vision/managers/EyeTracker.kt:211-236 | A gaze point exists exactly when some pupil estimate exists, in either mode. |
| `EyeTracker.TwoEyeGazeExample` | app/src/main/kotlin/com/qali/vision/managers/EyeTracker.kt:216-227 | Pupils (0.3,0.4) and (0.5,0.4) with region centres (0.32,0.4) and (0.48,0.4) give the gaze point (0.4,0.4). |
| `TrackingCalculator.RangeMultiplier` | app/src/main/kotlin/com/qali/vision/managers/TrackingCalculator.kt:24-28 | The range multiplier exceeds 1 by exactly effect × multiplier, so it is 1 when the effect is 0, whatever the multiplier. It is at least 1 for non-negative settings. |
| `TrackingCalculator.RangeMultiplierMonotone` | app/src/main/kotlin/com/qali/vision/managers/TrackingCalculator.kt:24-28 | With a non-negative multiplier, a larger effect never gives a smaller range multiplier. |
| `TrackingCalculator.RangeAmplificationExample` | app/src/main/kotlin/com/qali/vision/managers/TrackingCalculator.kt:19-28 | Effect 1 with multiplier 1 doubles the range: a movement of 0.2 from the centre becomes 0.4. |
| `TrackingCalculator.DistanceRange` | app/src/main/kotlin/com/qali/vision/managers/TrackingCalculator.kt:34-35 | The distance range exceeds 1 by exactly distance × multiplier, so it is 1 when the multiplier is 0, whatever the distance. It is at least 1 for non-negative inputs. |
| `TrackingCalculator.AxisPosition` | app/src/main/kotlin/com/qali/vision/managers/TrackingCalculator.kt:41-46 | The axis result lies in [0, size]. Position 0.5 maps to size/2 for every multiplier setting. |
| `TrackingCalculator.CalculateAdjustedPosition` | app/src/main/kotlin/com/qali/vision/managers/TrackingCalculator.kt:9-49 | The output lies in [0, width] × [0, height]. Each coordinate is the axis map of its own axis's inputs. |
| `TrackingCalculator.PassThrough` | app/src/main/kotlin/com/qali/vision/managers/TrackingCalculator.kt:19-46 | With the effects off, the distance multipliers off and a unit movement multiplier, the result is `clamp(position · size)`. |
| `TrackingCalculator.XIndependentOfY` | app/src/main/kotlin/com/qali/vision/managers/TrackingCalculator.kt:24-45 | X depends only on `eyePositionX`, the distance proxy, the X settings and the width. |
| `TrackingCalculator.AxisPositionMonotone` | app/src/main/kotlin/com/qali/vision/managers/TrackingCalculator.kt:19-46 | With a non-negative overall gain, the mapping preserves the order of positions. |
| `TrackingCalculator.DistanceAmplificationExample` | app/src/main/kotlin/com/qali/vision/managers/TrackingCalculator.kt:34-37 | A distance multiplier of 2 at distance 0.25 gives range 1.5, and a movement of 0.2 becomes 0.3. |
| `EyeBlinkDetector.ElapsedMs` | app/src/main/kotlin/com/qali/vision/managers/EyeBlinkDetector.kt:39 | The time step is at least 1 ms. It equals the true difference when that is at least 1. |
| `EyeBlinkDetector.Openness` | app/src/main/kotlin/com/qali/vision/managers/EyeBlinkDetector.kt:34 | Raw openness lies in [0, 1]. It is the lid gap when that is already in range. |
| `EyeBlinkDetector.Normalize` | app/src/main/kotlin/com/qali/vision/managers/EyeBlinkDetector.kt:36 | The normalized openness lies in [0, 1]. It is openness/baseline below the baseline, and 1 above it. It is undefined (not a number) exactly for a zero baseline with zero openness. |
| `EyeBlinkDetector.FirstFresh` | app/src/main/kotlin/com/qali/vision/managers/EyeBlinkDetector.kt:51 | The eviction point: every entry before it is more than 500 ms old, and the entry at it, if any, is not. |
| `EyeBlinkDetector.EvictStale` | app/src/main/kotlin/com/qali/vision/managers/EyeBlinkDetector.kt:51 | Eviction keeps a suffix whose oldest entry is at most 500 ms old. Every dropped entry was older than that. A recent newest entry is never dropped. |
| `EyeBlinkDetector.Newest` | app/src/main/kotlin/com/qali/vision/managers/EyeBlinkDetector.kt:38-49 | The new sample is stamped now with the normalized openness. Velocity is 0 with an empty history, acceleration 0 with fewer than two entries. |
| `EyeBlinkDetector.NewestRates` | app/src/main/kotlin/com/qali/vision/managers/EyeBlinkDetector.kt:38-47 | The velocity times the elapsed seconds (floored at 1 ms) since the newest entry is the openness change. The acceleration times the elapsed seconds since the entry before it is the velocity change. |
| `EyeBlinkDetector.Cap` | app/src/main/kotlin/com/qali/vision/managers/EyeBlinkDetector.kt:50 | Capping drops at most the first entry, and drops it exactly when there are more than 5. What remains is a suffix. |
| `EyeBlinkDetector.Ingest` | app/src/main/kotlin/com/qali/vision/managers/EyeBlinkDetector.kt:38-51 | The new sample (`Newest`) is appended last. The oldest kept entry is within 500 ms. At most 5 entries remain when there were at most 5. The earlier entries are a suffix of the old history. |
| `EyeBlinkDetector.IngestDropsOnlyStale` | app/src/main/kotlin/com/qali/vision/managers/EyeBlinkDetector.kt:50-51 | Ingestion drops at most the first entry for capacity; every other dropped entry is more than 500 ms old. With the fresh oldest kept entry, this fixes which suffix is kept. |
| `EyeBlinkDetector.Classify` | app/src/main/kotlin/com/qali/vision/managers/EyeBlinkDetector.kt:53-83 | Tap iff the tap rule holds. DragStart iff no tap and the drag-start rule holds. DragEnd iff neither and the drag-end rule holds. DragStart goes Idle→HalfBlinking and DragEnd goes HalfBlinking→Idle; a Tap keeps the mode. Tap and DragStart record now as the action time. |
| `EyeBlinkDetector.Process` | app/src/main/kotlin/com/qali/vision/managers/EyeBlinkDetector.kt:32-84 | The first call only calibrates: empty history, no event. Later calls keep the baseline, ingest the normalized sample stamped now, and classify the ingested history. The result is not a number exactly for a zero baseline and zero openness. |
| `EyeBlinkDetector.ProcessIngests` | app/src/main/kotlin/com/qali/vision/managers/EyeBlinkDetector.kt:36-51 | After calibration, the new history is exactly the ingestion of the old history with the new normalized sample. |
| `EyeBlinkDetector.Run` | app/src/main/kotlin/com/qali/vision/managers/EyeBlinkDetector.kt:32-84 | Each observation raises at most one gesture, so a run reports no more gestures than inputs. |
| `EyeBlinkDetector.Reset` | app/src/main/kotlin/com/qali/vision/managers/EyeBlinkDetector.kt:93 | Reset clears history, mode and calibration (baseline 1). It keeps the last action time. |
| `EyeBlinkDetector.EyeAreaLids` | app/src/main/kotlin/com/qali/vision/managers/EyeBlinkDetector.kt:87-88 | The synthesized lid gap is `0.2 + 0.4·clamp(area, 0, 1)`, in [0.2, 0.6], and passes unclamped into openness. |
| `EyeBlinkDetector.ProcessEyeArea` | app/src/main/kotlin/com/qali/vision/managers/EyeBlinkDetector.kt:86-91 | It always answers false. It feeds the detector the synthesized lids with click position (0, 0). |
| `EyeBlinkDetector.IngestKeepsWindow` | app/src/main/kotlin/com/qali/vision/managers/EyeBlinkDetector.kt:49-51 | From an ordered history, ingestion leaves at most 5 ordered entries, all within the last 500 ms, with openness in [0, 1]. |
| `EyeBlinkDetector.ProcessKeepsWindow` | app/src/main/kotlin/com/qali/vision/managers/EyeBlinkDetector.kt:49-51 | After every call that ingests, the history invariant holds and every entry lies within 500 ms of now. |
| `EyeBlinkDetector.BackwardClockDefeatsWindow` | app/src/main/kotlin/com/qali/vision/managers/EyeBlinkDetector.kt:51 | Eviction looks only at the oldest entry. After a clock step back, an entry 600 ms old survives. |
| `EyeBlinkDetector.TapsAreSpaced` | app/src/main/kotlin/com/qali/vision/managers/EyeBlinkDetector.kt:53-66 | Over any run with a clock that never steps back, resets included, every Tap is at least 250 ms after the last action. Any two Taps are at least 250 ms apart. |
| `EyeBlinkDetector.BackwardClockDefeatsCooldown` | app/src/main/kotlin/com/qali/vision/managers/EyeBlinkDetector.kt:53-77 | The cooldown compares against the last action's clock reading. With the clock stepping back for a drag start, two taps 100 ms apart both fire. |
| `EyeBlinkDetector.StepKeepsCooldown` | app/src/main/kotlin/com/qali/vision/managers/EyeBlinkDetector.kt:53-78 | One call never moves the last action time back or past now. A Tap needs 250 ms since the last action and restarts the cooldown. |
| `EyeBlinkDetector.DragGesturesAlternate` | app/src/main/kotlin/com/qali/vision/managers/EyeBlinkDetector.kt:72-81 | Over any run without resets, DragStart and DragEnd strictly alternate. From Idle the first is DragStart. |
| `EyeBlinkDetector.RunKeepsHistoryOk` | app/src/main/kotlin/com/qali/vision/managers/EyeBlinkDetector.kt:49-51 | Over any run with a clock that never steps back, the history stays bounded by 5, ordered, and in [0, 1]. |
| `EyeBlinkDetector.ClickDelayIsIgnored` | app/src/main/kotlin/com/qali/vision/managers/EyeBlinkDetector.kt:15-30 | The click-delay setting has no influence on any call. |
| `EyeBlinkDetector.ResetForcesRecalibration` | app/src/main/kotlin/com/qali/vision/managers/EyeBlinkDetector.kt:35 | After a reset the next call only recalibrates. It emits nothing, leaves the history empty and keeps the cooldown. |
| `EyeBlinkDetector.HalfCloseStartsDrag` | app/src/main/kotlin/com/qali/vision/managers/EyeBlinkDetector.kt:72-77 | Calibration, two open samples and a half close (0.5) 100 ms apart raise DragStart at the half close, whatever follows. |
| `EyeBlinkDetector.TapScenario` | app/src/main/kotlin/com/qali/vision/managers/EyeBlinkDetector.kt:53-70 | Reopening fully 250 ms after the half close raises a Tap after the DragStart. |
| `EyeBlinkDetector.QuickBlinkReadsAsDrag` | app/src/main/kotlin/com/qali/vision/managers/EyeBlinkDetector.kt:53-81 | Reopening to 0.9 only 100 ms after the half close is inside the cooldown, so it raises DragEnd, not Tap. |
| `MouseControlService.EffectiveConfig` | app/src/main/kotlin/com/qali/vision/services/MouseControlService.kt:93-94 | Without a configuration the smoothing is 0.7 and the interval 16 ms. In-range settings stay in range. |
| `MouseControlService.Smooth` | app/src/main/kotlin/com/qali/vision/services/MouseControlService.kt:154-155 | For a smoothing factor in [0, 1] the smoothed value lies between the last and the new value. The remaining distance is the factor times the old distance. |
| `MouseControlService.Target` | app/src/main/kotlin/com/qali/vision/services/MouseControlService.kt:151-155 | The exact request when forced or without a previous position. Otherwise a point between the previous position and the request on each axis. |
| `MouseControlService.StrokeTo` | app/src/main/kotlin/com/qali/vision/services/MouseControlService.kt:164-173 | While dragging, a stroke from the drag origin to the target lasting 16 ms. Otherwise a single point at the target lasting 1 ms. |
| `MouseControlService.MoveInternal` | app/src/main/kotlin/com/qali/vision/services/MouseControlService.kt:144-180 | Disabled or throttled: nothing changes. Otherwise the update time becomes now. A stroke is dispatched iff the move is forced or leaves the dead zone, and then the cursor is at the target. Drag state is never touched. A forced, enabled move always lands exactly and dispatches. |
| `MouseControlService.PerformMouseMove` | app/src/main/kotlin/com/qali/vision/services/MouseControlService.kt:135-142 | A negative coordinate changes nothing and dispatches nothing. Any other request is an unforced move. |
| `MouseControlService.Click` | app/src/main/kotlin/com/qali/vision/services/MouseControlService.kt:191-208 | A stroke exactly when enabled with a positive last position: a 50 ms press from the cursor to itself. |
| `MouseControlService.StartDrag` | app/src/main/kotlin/com/qali/vision/services/MouseControlService.kt:211-217 | Under the click guard it enters drag mode with the cursor as origin. Otherwise nothing changes. |
| `MouseControlService.EndDrag` | app/src/main/kotlin/com/qali/vision/services/MouseControlService.kt:219-222 | Drag mode is off afterwards, unconditionally. Nothing else changes. |
| `MouseControlService.NegativeMoveIgnored` | app/src/main/kotlin/com/qali/vision/services/MouseControlService.kt:136 | A request with a negative coordinate leaves the state and dispatches nothing. |
| `MouseControlService.SmoothingShrinksDistance` | app/src/main/kotlin/com/qali/vision/services/MouseControlService.kt:152-155 | After a dispatched smoothed move, the distance left to the request is the smoothing factor times the distance before. |
| `MouseControlService.DeadZoneRestartsThrottle` | app/src/main/kotlin/com/qali/vision/services/MouseControlService.kt:148-159 | A move suppressed by the dead zone still stamps the update time. Every unforced move within the next interval is then throttled. |
| `MouseControlService.ClickAfterForcedMove` | app/src/main/kotlin/com/qali/vision/services/MouseControlService.kt:191-200 | After a forced move to a positive point, a click presses exactly there. |
| `MouseControlService.DragStrokesStartAtOrigin` | app/src/main/kotlin/com/qali/vision/services/MouseControlService.kt:164-173 | After a drag start, a dispatched move draws a two-point path from the cursor position at drag start. After a drag end, moves dispatch single points. |
| `MouseControlService.MoveKeepsCursorOk` | app/src/main/kotlin/com/qali/vision/services/MouseControlService.kt:152-173 | A move to a non-negative point, forced or not, keeps the cursor non-negative. It dispatches only non-negative strokes. |
| `MouseControlService.ResetOnConnect` | app/src/main/kotlin/com/qali/vision/services/MouseControlService.kt:101-104 | Connecting zeroes the position and update time and ends drag mode. It keeps the drag origin. |
| `MouseControlService.ConnectAsWritten` | app/src/main/kotlin/com/qali/vision/services/MouseControlService.kt:96-111 | Connecting resets the cursor. With the service enabled, it replays the pending position exactly, as a single-point stroke. With it disabled, or with nothing pending, it only resets. |
| `MouseControlService.Connect` | app/src/main/kotlin/com/qali/vision/services/MouseControlService.kt:96-111 | As above, except that a pending position with a negative coordinate is not replayed. |
| `MouseControlService.ConnectAgreesOffNegative` | app/src/main/kotlin/com/qali/vision/services/MouseControlService.kt:108-110 | The corrected and the as-written connect agree exactly when nothing is pending, the pending point is non-negative, or the service is disabled. |
| `MouseControlService.Step` | app/src/main/kotlin/com/qali/vision/services/MouseControlService.kt:56-117 | `moveCursor` always records the pending position. Without a connected instance, no request but a connection or a destruction changes anything else, and only a connection dispatches. A destruction drops the instance's configuration and cursor state. A configuration reaches only a connected instance. What a connected instance does with each request is stated by the lemmas below. |
| `MouseControlService.StepAsWritten` | app/src/main/kotlin/com/qali/vision/services/MouseControlService.kt:96-111 | The as-written step differs from the corrected `Step` exactly on a connection with the service enabled and a pending position that has a negative coordinate. |
| `MouseControlService.ConnectedMoveDispatches` | app/src/main/kotlin/com/qali/vision/services/MouseControlService.kt:56-59 | A move reaching a connected instance dispatches exactly when the service is enabled, both coordinates are non-negative, the throttle lets it through and the smoothed target leaves the dead zone. The cursor then moves to the target, the update time becomes `now`, and the stroke goes to the target. |
| `MouseControlService.ConnectedClickPresses` | app/src/main/kotlin/com/qali/vision/services/MouseControlService.kt:61-63 | A click reaching a connected instance presses for 50 ms at the cursor exactly when the service is enabled and the cursor has a previous position. It changes nothing else. |
| `MouseControlService.ConnectedDragRequests` | app/src/main/kotlin/com/qali/vision/services/MouseControlService.kt:65-71 | A drag start reaching a connected instance under the click guard makes the cursor the drag origin. A drag end always leaves drag mode. Neither dispatches. |
| `MouseControlService.ConnectionReplaysPending` | app/src/main/kotlin/com/qali/vision/services/MouseControlService.kt:96-111 | A connection resets the cursor and replays the pending position. It dispatches a single-point stroke exactly when the service is enabled and the position is non-negative, leaving the cursor there with update time `now`. Otherwise nothing is dispatched and the cursor stays reset. |
| `MouseControlService.Run` | app/src/main/kotlin/com/qali/vision/services/MouseControlService.kt:56-117 | Each request dispatches at most one stroke, so a run dispatches no more strokes than requests. |
| `MouseControlService.ReconnectUsesDefaults` | app/src/main/kotlin/com/qali/vision/services/MouseControlService.kt:77-117 | After a destruction, a configuration sent while disconnected is lost. The next connection moves with smoothing 0.7 and a 16 ms interval, from drag origin (0, 0). |
| `MouseControlService.PendingIsLastRequest` | app/src/main/kotlin/com/qali/vision/services/MouseControlService.kt:56-59 | Over any run, the pending slot holds the last requested position, connected or not. Last writer wins. |
| `MouseControlService.StepKeepsServiceOk` | app/src/main/kotlin/com/qali/vision/services/MouseControlService.kt:135-222 | Every request, with any new settings in range, keeps the cursor non-negative and a positive drag origin while dragging. It dispatches only non-negative strokes. |
| `MouseControlService.RunDispatchesOnlyOnScreen` | app/src/main/kotlin/com/qali/vision/services/MouseControlService.kt:135-180 | Over any run with settings in range, every dispatched stroke has only non-negative points. |
| `MouseControlService.ConnectMoveClickScenario` | app/src/main/kotlin/com/qali/vision/services/MouseControlService.kt:56-63 | A run collects the steps' strokes in order. Connecting with nothing pending, then a move to (100, 200), then a click dispatches a 1 ms point at (100, 200) followed by a 50 ms press there. |
| `MouseControlService.NegativeReplayAsWritten` | app/src/main/kotlin/com/qali/vision/services/MouseControlService.kt:56-110 | As written, a request for (−1, −1) before connection is replayed on connection as a stroke at (−1, −1). The corrected service dispatches nothing. |

## Left out

- Android glue. The following are not modelled:
  - `dispatchGesture`, `Path` and `GestureDescription`, beyond the emitted stroke record;
  - the result callback of a click;
  - `Handler`/`Looper` marshalling: posted work runs at once, in request order;
  - `AtomicReference`, `CopyOnWriteArraySet` and the connection callbacks;
  - the accessibility-settings string lookup, which is the `enabled` input;
  - logging.
- The singleton `instance` is the `connected` flag. A destroyed service is replaced
  by a fresh one: no configuration, cursor and drag origin at zero. The
  system's creation of the new instance is folded into its connection.
- Wall-clock reads are the `now` parameter of each call.
- IEEE float behaviour is not modelled: rounding, infinities and NaN. Values are
  exact reals. Two cases are written out instead:
  - a positive openness over a zero baseline is infinite in the source and clamps
    to 1;
  - zero over zero is not a number, and the model stops there (`NotANumber`).
- Tap, drag-start and drag-end callbacks are not invoked. The detector returns the
  gesture instead, with the click position the caller supplied. The threshold
  setters are the `DetectorConfig` passed to each call.
- `EyeBlinkDetector.ProcessKeepsWindow`, `EyeBlinkDetector.RunKeepsHistoryOk`: the 500 ms
  window holds only for a clock that never steps back. Eviction only looks at the
  front of the history, as `BackwardClockDefeatsWindow` shows.
- `EyeBlinkDetector.TapsAreSpaced`: the 250 ms tap spacing is proved only for a clock
  that never steps back. A drag start read at an earlier time moves the last action
  back, and then two taps 100 ms apart both fire (`BackwardClockDefeatsCooldown`).
- `EyeBlinkDetector.DragGesturesAlternate`: stated for runs without resets. A reset
  returns the mode to Idle without a DragEnd.
- `EyeBlinkDetector.Run`: a run stops at the first not-a-number sample. The source
  would keep going on NaN samples, and no comparison on them holds.
- `MouseControlService.RunDispatchesOnlyOnScreen`: proved for the corrected connect.
  The as-written connect violates it; see Findings.
- Drawing and screen layout are left out: the overlay service, the pointer and
  cursor views, the settings screen and the preference storage. Only the setting
  ranges are used (smoothing in [0, 1], interval in [8, 100] ms), in `ValidConfig`.
- The camera and landmark-model plumbing in both `EyeControlManager` classes is left
  out; it holds no logic. The launcher's database and icon code is left out too.
- Landmarks carry only x and y; the z coordinate and visibility of a landmark are
  never read by the core.
- `getLeftEyeIndices` / `getRightEyeIndices` only return the index constants; the
  model exposes those constants directly. `setUseOneEye` is the `useOneEye`
  argument of `TrackEyes`.
- `onAccessibilityEvent`, `onInterrupt` and `onGesture` do nothing and are left out.
  So is `getPendingCursorPosition`, which only reads the pending slot.

## Findings

| source | as written | input that shows it | evidently intended | confidence | as-written member | corrected member |
|---|---|---|---|---|---|---|
| app/src/main/kotlin/com/qali/vision/services/MouseControlService.kt:108-110 | The position pending at connection is replayed with `forceImmediate = true` through `performMouseMoveInternal`. This skips the negative-coordinate check in `performMouseMove` (line 136). `moveCursor` stores negative requests, the "no detection" sentinel, in the pending slot unfiltered. | `moveCursor(-1, -1)` before the service connects, then the service connects with accessibility enabled. A stroke at (−1, −1) is dispatched. The platform's stroke description does not accept a path with negative bounds. | The replay is subject to the same rule as every other move: a negative request is never dispatched. | medium, not executed | `MouseControlService.ConnectAsWritten`, `MouseControlService.NegativeReplayAsWritten` | `MouseControlService.Connect`, `MouseControlService.RunDispatchesOnlyOnScreen` |

=== FILE: common.dfy ===
/**
 Shared vocabulary of the gaze-to-action pipeline: optional values, 2-D points,
 the clamping used everywhere (Kotlin's `coerceIn`), and the minimum, maximum
 and mean of a non-empty list of reals.
 */
module Common {

  /** An absent-or-present value; the Kotlin source uses nullable types. */
  datatype Option<+T> = None | Some(value: T) {

    /** The Elvis operator `this ?: other`. */
    function OrElse(other: Option<T>): Option<T> {
      if Some? then this else other
    }

    function GetOr(default: T): T {
      if Some? then value else default
    }
  }

  /** A point (Android's `PointF`), in normalized or in screen coordinates. */
  datatype Point = Point(x: real, y: real)

  /** `v.coerceIn(lo, hi)`. */
  function Clamp(v: real, lo: real, hi: real): (r: real)
    requires lo <= hi
    ensures lo <= r <= hi
    ensures lo <= v <= hi ==> r == v
    ensures v < lo ==> r == lo
    ensures hi < v ==> r == hi
  {
    if v < lo then lo else if hi < v then hi else v
  }

  /** `coerceIn` is monotone: it never reorders two values. */
  lemma ClampMonotone(a: real, b: real, lo: real, hi: real)
    requires lo <= hi
    requires a <= b
    ensures Clamp(a, lo, hi) <= Clamp(b, lo, hi)
  {
  }

  function Abs(v: real): (r: real)
    ensures r >= 0.0
    ensures r == v || r == -v
  {
    if v < 0.0 then -v else v
  }

  /** The smallest element (Kotlin's `minOf`). */
  function MinOf(s: seq<real>): (m: real)
    requires |s| > 0
    ensures m in s
    ensures forall i :: 0 <= i < |s| ==> m <= s[i]
  {
    if |s| == 1 then s[0]
    else
      var t := MinOf(s[1..]);
      assert forall i :: 1 <= i < |s| ==> s[i] == s[1..][i - 1];
      if s[0] <= t then s[0] else t
  }

  /** The largest element (Kotlin's `maxOf`). */
  function MaxOf(s: seq<real>): (m: real)
    requires |s| > 0
    ensures m in s
    ensures forall i :: 0 <= i < |s| ==> s[i] <= m
  {
    if |s| == 1 then s[0]
    else
      var t := MaxOf(s[1..]);
      assert forall i :: 1 <= i < |s| ==> s[i] == s[1..][i - 1];
      if s[0] >= t then s[0] else t
  }

  function Sum(s: seq<real>): real
  {
    if |s| == 0 then 0.0 else s[0] + Sum(s[1..])
  }

  /** A sum of values within [lo, hi] lies within [n·lo, n·hi]. */
  lemma {:induction false} SumBounds(s: seq<real>, lo: real, hi: real)
    requires forall i :: 0 <= i < |s| ==> lo <= s[i] <= hi
    ensures (|s| as real) * lo <= Sum(s) <= (|s| as real) * hi
  {
    if |s| > 0 {
      var rest := s[1..];
      assert forall i :: 0 <= i < |rest| ==> rest[i] == s[i + 1];
      SumBounds(rest, lo, hi);
      assert (|s| as real) * lo == lo + (|rest| as real) * lo;
      assert (|s| as real) * hi == hi + (|rest| as real) * hi;
    }
  }

  /** The arithmetic mean (Kotlin's `average()`): the value that, taken once per element,
      adds up to the sum. */
  function Mean(s: seq<real>): (m: real)
    requires |s| > 0
    ensures (|s| as real) * m == Sum(s)
  {
    var total, n := Sum(s), |s| as real;
    TimesQuotient(total, n, total / n);
    total / n
  }

  /** The mean lies between the extremes. */
  lemma MeanWithin(s: seq<real>)
    requires |s| > 0
    ensures MinOf(s) <= Mean(s) <= MaxOf(s)
  {
    MeanBounds(s, MinOf(s), MaxOf(s));
  }

  lemma TimesQuotient(total: real, n: real, q: real)
    requires n > 0.0 && q == total / n
    ensures n * q == total
  {
  }

  /** The mean of values within [lo, hi] lies within [lo, hi]. */
  lemma MeanBounds(s: seq<real>, lo: real, hi: real)
    requires |s| > 0
    requires forall i :: 0 <= i < |s| ==> lo <= s[i] <= hi
    ensures lo <= Sum(s) / (|s| as real) <= hi
  {
    SumBounds(s, lo, hi);
    MeanBetween(Sum(s), |s| as real, lo, hi);
  }

  lemma MeanBetween(total: real, n: real, lo: real, hi: real)
    requires n > 0.0
    requires n * lo <= total <= n * hi
    ensures lo <= total / n <= hi
  {
  }
}

=== FILE: eye_blink_detector.dfy ===
/**
 Blink gesture detection: a state machine over the eyelid-openness signal.
 The first sample calibrates a baseline; every later sample is normalized to it,
 differentiated twice over a short history, and classified as a tap (a full
 blink), the start of a drag (a sharp half-blink) or the end of a drag.
 The wall clock is the `now` parameter, in milliseconds.
 */
module EyeBlinkDetector {
  import opened Common

  /** Fixed design constants (not user settings). */
  const HistoryCapacity: nat := 5
  const HistoryWindowMs: int := 500
  const TapCooldownMs: int := 250
  const ReopenMargin: real := 0.15
  const ReopenAccelFactor: real := 0.6
  const HalfBlinkAccelFactor: real := 0.8
  const DragEndAccel: real := 0.05
  const DragEndOpenness: real := 0.7

  /** User settings. `clickDelayThreshold` (milliseconds) is stored but no step reads it. */
  datatype DetectorConfig = DetectorConfig(blinkThreshold: real, halfBlinkAccelThreshold: real,
                                           clickDelayThreshold: int)

  const DefaultConfig: DetectorConfig := DetectorConfig(0.3, 0.15, 200)

  /** One entry of the history: normalized openness and its first two time derivatives. */
  datatype Sample = Sample(time: int, openness: real, velocity: real, acceleration: real)

  datatype Mode = Idle | HalfBlinking

  datatype Detector = Detector(history: seq<Sample>, lastActionTime: int, mode: Mode,
                               baselineOpenness: real, baselineSet: bool)

  /** A freshly constructed detector. */
  const Initial: Detector := Detector([], 0, Idle, 1.0, false)

  /** Tap and DragStart carry the gaze point they were raised at. */
  datatype Gesture = Tap(at: Point) | DragStart(at: Point) | DragEnd

  /** The result of one sample. With a zero baseline and a zero openness the source
      divides 0 by 0; the quotient is not a number, so the model stops there. */
  datatype Outcome = Stepped(next: Detector, event: Option<Gesture>) | NotANumber

  function Last(h: seq<Sample>): Sample
    requires |h| > 0
  {
    h[|h| - 1]
  }

  /** Milliseconds between two timestamps, floored at 1 so that no rate divides by zero. */
  function ElapsedMs(now: int, earlier: int): (dt: int)
    ensures dt >= 1
    ensures dt >= now - earlier
    ensures now - earlier >= 1 ==> dt == now - earlier
  {
    if now - earlier < 1 then 1 else now - earlier
  }

  /** Raw openness: the lid gap, clamped to [0, 1]. */
  function Openness(upperLidY: real, lowerLidY: real): (o: real)
    ensures 0.0 <= o <= 1.0
    ensures 0.0 <= lowerLidY - upperLidY <= 1.0 ==> o == lowerLidY - upperLidY
  {
    Clamp(lowerLidY - upperLidY, 0.0, 1.0)
  }

  /** Openness relative to the baseline, clamped to [0, 1]. A zero baseline makes the
      source's float quotient infinite, which clamps to 1, or, for a zero openness, NaN. */
  function Normalize(openness: real, baseline: real): (n: Option<real>)
    ensures n.None? <==> baseline == 0.0 && openness == 0.0
    ensures n.Some? ==> 0.0 <= n.value <= 1.0
    ensures baseline > 0.0 && 0.0 <= openness <= baseline ==> n == Some(openness / baseline)
    ensures baseline > 0.0 && openness >= baseline ==> n == Some(1.0)
  {
    QuotientBounds(openness, baseline);
    if baseline != 0.0 then Some(Clamp(openness / baseline, 0.0, 1.0))
    else if openness > 0.0 then Some(1.0)
    else if openness < 0.0 then Some(0.0)
    else None
  }

  lemma QuotientBounds(openness: real, baseline: real)
    ensures baseline > 0.0 && openness >= 0.0 ==> openness / baseline >= 0.0
    ensures baseline > 0.0 && 0.0 <= openness <= baseline ==> openness / baseline <= 1.0
    ensures baseline > 0.0 && openness >= baseline ==> openness / baseline >= 1.0
  {
    if baseline > 0.0 {
      var q := openness / baseline;
      assert q * baseline == openness;
      if q < 0.0 {
        assert q * baseline < 0.0;
      }
      if q > 1.0 {
        assert (q - 1.0) * baseline > 0.0;
        assert openness - baseline > 0.0;
      }
      if q < 1.0 {
        assert (1.0 - q) * baseline > 0.0;
        assert baseline - openness > 0.0;
      }
    }
  }

  /** The index of the first entry from `i` on that is at most 500 ms old, or `|h|`. */
  function FirstFresh(h: seq<Sample>, i: nat, now: int): (k: nat)
    requires i <= |h|
    ensures i <= k <= |h|
    ensures forall j :: i <= j < k ==> now - h[j].time > HistoryWindowMs
    ensures k < |h| ==> now - h[k].time <= HistoryWindowMs
    decreases |h| - i
  {
    if i < |h| && now - h[i].time > HistoryWindowMs then FirstFresh(h, i + 1, now) else i
  }

  /** Drops entries from the front while the oldest is more than 500 ms old. */
  function EvictStale(h: seq<Sample>, now: int): (r: seq<Sample>)
    ensures |r| <= |h| && r == h[|h| - |r|..]
    ensures |r| > 0 ==> now - r[0].time <= HistoryWindowMs
    ensures forall i :: 0 <= i < |h| - |r| ==> now - h[i].time > HistoryWindowMs
    ensures |h| > 0 && now - h[|h| - 1].time <= HistoryWindowMs ==> |r| > 0
  {
    h[FirstFresh(h, 0, now)..]
  }

  /** Change per second over `dtMs` milliseconds. */
  function Rate(delta: real, dtMs: int): (v: real)
    requires dtMs >= 1
    ensures v * ((dtMs as real) / 1000.0) == delta
  {
    delta / ((dtMs as real) / 1000.0)
  }

  /** Appends the sample taken at `now`, then drops the oldest entry beyond capacity 5,
      then the stale ones. */
  function Ingest(h: seq<Sample>, normalized: real, now: int): (r: seq<Sample>)
    ensures |r| > 0 && Last(r).time == now && Last(r).openness == normalized
    ensures now - r[0].time <= HistoryWindowMs
    ensures |r| <= |h| + 1
    ensures |h| <= HistoryCapacity ==> |r| <= HistoryCapacity
    ensures r[..|r| - 1] == h[|h| + 1 - |r|..]
    ensures Last(r) == Newest(h, normalized, now)
  {
    var newest := Newest(h, normalized, now);
    CapAndEvict(h, newest);
    EvictStale(Cap(h + [newest]), now)
  }

  /** Ingestion loses only what the capacity and the window force out: at most the oldest
      entry for capacity, then entries more than 500 ms old. With `IngestKeepsWindow` this
      determines the retained suffix. */
  lemma IngestDropsOnlyStale(h: seq<Sample>, normalized: real, now: int)
    ensures var dropped := |h| + 1 - |Ingest(h, normalized, now)|;
            var capped := if |h| >= HistoryCapacity then 1 else 0;
            && capped <= dropped
            && forall i :: capped <= i < dropped ==> now - h[i].time > HistoryWindowMs
  {
    CapAndEvictDropsOnlyStale(h, Newest(h, normalized, now));
  }

  /** The sample taken at `now`: its velocity is the openness change per second since the
      newest entry, its acceleration the velocity change per second since the one before. */
  function Newest(h: seq<Sample>, normalized: real, now: int): (s: Sample)
    ensures s.time == now && s.openness == normalized
    ensures |h| == 0 ==> s.velocity == 0.0 && s.acceleration == 0.0
    ensures |h| == 1 ==> s.acceleration == 0.0
  {
    var velocity := if |h| > 0 then Rate(normalized - Last(h).openness, ElapsedMs(now, Last(h).time)) else 0.0;
    var acceleration := if |h| >= 2 then Rate(velocity - Last(h).velocity, ElapsedMs(now, h[|h| - 2].time)) else 0.0;
    Sample(now, normalized, velocity, acceleration)
  }

  /** The rates of the newest sample: over the elapsed seconds (at least 1 ms), its velocity
      accounts for the openness change since the newest entry, and its acceleration for the
      velocity change since the entry before that. */
  lemma NewestRates(h: seq<Sample>, normalized: real, now: int)
    ensures var s := Newest(h, normalized, now);
            && (|h| > 0 ==>
                  s.velocity * ((ElapsedMs(now, Last(h).time) as real) / 1000.0) == normalized - Last(h).openness)
            && (|h| >= 2 ==>
                  s.acceleration * ((ElapsedMs(now, h[|h| - 2].time) as real) / 1000.0)
                  == s.velocity - Last(h).velocity)
  {
  }

  /** Drops the oldest entry when there are more than five. */
  function Cap(a: seq<Sample>): (c: seq<Sample>)
    ensures |a| - 1 <= |c| <= |a|
    ensures c == a[|a| - |c|..]
    ensures |c| == |a| <==> |a| <= HistoryCapacity
  {
    if |a| > HistoryCapacity then a[1..] else a
  }

  /** Capping and evicting after an append keeps the new sample, last, behind a suffix of
      the old history, and keeps at most five entries when there were at most five. */
  lemma CapAndEvict(h: seq<Sample>, newest: Sample)
    ensures var r := EvictStale(Cap(h + [newest]), newest.time);
      && |r| > 0 && Last(r) == newest
      && newest.time - r[0].time <= HistoryWindowMs
      && |r| <= |h| + 1
      && (|h| <= HistoryCapacity ==> |r| <= HistoryCapacity)
      && r[..|r| - 1] == h[|h| + 1 - |r|..]
  {
    var a := h + [newest];
    var capped := Cap(a);
    assert capped[|capped| - 1] == a[|a| - 1] == newest;
    var r := EvictStale(capped, newest.time);
    TailOfAppended(h, newest, capped, r);
  }

  /** Between the entry capping drops and the retained suffix, capping and evicting after an
      append drops only entries more than 500 ms older than the new sample. */
  lemma CapAndEvictDropsOnlyStale(h: seq<Sample>, newest: Sample)
    ensures var r := EvictStale(Cap(h + [newest]), newest.time);
      var capped := if |h| >= HistoryCapacity then 1 else 0;
      && capped <= |h| + 1 - |r|
      && forall i :: capped <= i < |h| + 1 - |r| ==> newest.time - h[i].time > HistoryWindowMs
  {
    var a := h + [newest];
    var capped := Cap(a);
    var r := EvictStale(capped, newest.time);
    assert |r| > 0 by {
      assert capped[|capped| - 1] == a[|a| - 1] == newest;
    }
    var skip := |a| - |capped|;
    assert skip == if |h| >= HistoryCapacity then 1 else 0;
    forall i | skip <= i < |h| + 1 - |r| ensures newest.time - h[i].time > HistoryWindowMs {
      assert capped[i - skip] == a[i] == h[i];
    }
  }

  /** A non-empty suffix of a suffix of `h + [newest]` ends in `newest`, after a suffix of `h`. */
  lemma TailOfAppended(h: seq<Sample>, newest: Sample, capped: seq<Sample>, r: seq<Sample>)
    requires capped == h + [newest] || capped == (h + [newest])[1..]
    requires |r| <= |capped| && r == capped[|capped| - |r|..]
    requires |r| > 0
    ensures Last(r) == newest
    ensures r[..|r| - 1] == h[|h| + 1 - |r|..]
  {
    var a := h + [newest];
    assert capped == a[|a| - |capped|..];
    assert r == a[|a| - |r|..];
    assert r[..|r| - 1] == a[|a| - |r|..|a| - 1];
    assert a[..|a| - 1] == h;
  }

  /** The tap pattern on the two newest samples: a sharp close into the closed band,
      then a sharp reopen above the reopen band. */
  predicate TapPattern(cfg: DetectorConfig, s2: Sample, s3: Sample) {
    var closeThreshold := 1.0 - cfg.blinkThreshold;
    var reopenThreshold := if closeThreshold + ReopenMargin < 1.0 then closeThreshold + ReopenMargin else 1.0;
    && s2.acceleration < -cfg.blinkThreshold
    && s3.acceleration > cfg.blinkThreshold * ReopenAccelFactor
    && s2.openness < closeThreshold
    && s3.openness > reopenThreshold
  }

  /** A tap needs three samples, the tap pattern, and 250 ms since the last action. */
  predicate TapFires(cfg: DetectorConfig, h: seq<Sample>, lastActionTime: int, now: int) {
    |h| >= 3 && now - lastActionTime >= TapCooldownMs && TapPattern(cfg, h[|h| - 2], h[|h| - 1])
  }

  /** A drag starts, from Idle, on a large acceleration change ending in a sharp close. */
  predicate DragStartFires(cfg: DetectorConfig, h: seq<Sample>, mode: Mode) {
    && mode == Idle
    && |h| >= 2
    && Abs(h[|h| - 1].acceleration - h[|h| - 2].acceleration) >= cfg.halfBlinkAccelThreshold
    && h[|h| - 1].acceleration < -cfg.halfBlinkAccelThreshold * HalfBlinkAccelFactor
  }

  /** A drag ends, from HalfBlinking, once the eye reopens or is mostly open. */
  predicate DragEndFires(h: seq<Sample>, mode: Mode) {
    && mode == HalfBlinking
    && |h| >= 2
    && (h[|h| - 1].acceleration > DragEndAccel || h[|h| - 1].openness > DragEndOpenness)
  }

  /** Classification of the newest sample: exactly one rule fires, the first that matches
      in the order Tap, DragStart, DragEnd. */
  function Classify(cfg: DetectorConfig, d: Detector, click: Point, now: int): (r: (Detector, Option<Gesture>))
    ensures r.0.history == d.history && r.0.baselineSet == d.baselineSet
    ensures r.0.baselineOpenness == d.baselineOpenness
    ensures r.1 == Some(Tap(click)) <==> TapFires(cfg, d.history, d.lastActionTime, now)
    ensures r.1 == Some(DragStart(click)) <==>
              !TapFires(cfg, d.history, d.lastActionTime, now) && DragStartFires(cfg, d.history, d.mode)
    ensures r.1 == Some(DragEnd) <==>
              && !TapFires(cfg, d.history, d.lastActionTime, now)
              && !DragStartFires(cfg, d.history, d.mode)
              && DragEndFires(d.history, d.mode)
    ensures r.1.Some? ==> r.1 in {Some(Tap(click)), Some(DragStart(click)), Some(DragEnd)}
    ensures r.1.Some? && r.1.value.DragStart? ==> d.mode == Idle && r.0.mode == HalfBlinking
    ensures r.1 == Some(DragEnd) ==> d.mode == HalfBlinking && r.0.mode == Idle
    ensures r.1.None? || r.1.value.Tap? ==> r.0.mode == d.mode
    ensures r.1.Some? && !r.1.value.DragEnd? ==> r.0.lastActionTime == now
    ensures r.1.None? || r.1 == Some(DragEnd) ==> r.0.lastActionTime == d.lastActionTime
  {
    if TapFires(cfg, d.history, d.lastActionTime, now) then
      (d.(lastActionTime := now), Some(Tap(click)))
    else if DragStartFires(cfg, d.history, d.mode) then
      (d.(mode := HalfBlinking, lastActionTime := now), Some(DragStart(click)))
    else if DragEndFires(d.history, d.mode) then
      (d.(mode := Idle), Some(DragEnd))
    else
      (d, None)
  }

  /** `processEyelidLandmarks`: one eyelid observation at time `now`. The first one after
      construction or reset records the baseline, clears the history and emits nothing;
      every later one appends a normalized sample and classifies it. */
  function Process(cfg: DetectorConfig, d: Detector, upperLidY: real, lowerLidY: real, click: Point, now: int)
    : (o: Outcome)
    ensures !d.baselineSet ==>
              o == Stepped(d.(history := [], baselineSet := true,
                              baselineOpenness := Openness(upperLidY, lowerLidY)), None)
    ensures o.NotANumber? <==> d.baselineSet && d.baselineOpenness == 0.0 && Openness(upperLidY, lowerLidY) == 0.0
    ensures o.Stepped? && d.baselineSet ==>
              && o.next.baselineSet && o.next.baselineOpenness == d.baselineOpenness
              && |o.next.history| > 0 && Last(o.next.history).time == now
              && Some(Last(o.next.history).openness) == Normalize(Openness(upperLidY, lowerLidY), d.baselineOpenness)
              && (o.next, o.event) == Classify(cfg, d.(history := o.next.history), click, now)
  {
    var openness := Openness(upperLidY, lowerLidY);
    if !d.baselineSet then
      Stepped(d.(baselineOpenness := openness, baselineSet := true, history := []), None)
    else
      match Normalize(openness, d.baselineOpenness)
      case None => NotANumber
      case Some(normalized) =>
        var (next, event) := Classify(cfg, d.(history := Ingest(d.history, normalized, now)), click, now);
        Stepped(next, event)
  }

  /** A calibrated observation replaces the history by its ingestion: the old history
      with the normalized sample appended, capped and evicted. */
  lemma ProcessIngests(cfg: DetectorConfig, d: Detector, upperLidY: real, lowerLidY: real, click: Point, now: int)
    requires d.baselineSet
    ensures var o := Process(cfg, d, upperLidY, lowerLidY, click, now);
            o.Stepped? ==> o.next.history == Ingest(d.history, Last(o.next.history).openness, now)
  {
  }

  /** `reset`: forget the history, the drag mode and the calibration, but not the time of
      the last action. */
  function Reset(d: Detector): (r: Detector)
    ensures r.history == [] && r.mode == Idle && !r.baselineSet && r.baselineOpenness == 1.0
    ensures r.lastActionTime == d.lastActionTime
  {
    d.(history := [], mode := Idle, baselineSet := false, baselineOpenness := 1.0)
  }

  /** The lid positions `processEyeArea` synthesizes from an eye area. */
  function EyeAreaLids(eyeArea: real): (lids: (real, real))
    ensures 0.2 <= lids.1 - lids.0 <= 0.6
    ensures lids.1 - lids.0 == 0.2 + 0.4 * Clamp(eyeArea, 0.0, 1.0)
    ensures Openness(lids.0, lids.1) == lids.1 - lids.0
  {
    var normalized := Clamp(eyeArea, 0.0, 1.0);
    (0.4 - normalized * 0.2, 0.6 + normalized * 0.2)
  }

  /** `processEyeArea`: feeds a synthetic eyelid observation at (0, 0) and reports no gesture. */
  function ProcessEyeArea(cfg: DetectorConfig, d: Detector, eyeArea: real, now: int): (r: (Outcome, bool))
    ensures !r.1
    ensures r.0 == Process(cfg, d, EyeAreaLids(eyeArea).0, EyeAreaLids(eyeArea).1, Point(0.0, 0.0), now)
  {
    var lids := EyeAreaLids(eyeArea);
    (Process(cfg, d, lids.0, lids.1, Point(0.0, 0.0), now), false)
  }

  // ---------------------------------------------------------------------------
  // The history window

  predicate Sorted(h: seq<Sample>) {
    forall i, j :: 0 <= i < j < |h| ==> h[i].time <= h[j].time
  }

  /** What every reachable history satisfies, given a clock that never steps back:
      at most five entries, in time order, none from the future, openness in [0, 1]. */
  predicate HistoryOk(h: seq<Sample>, now: int) {
    && |h| <= HistoryCapacity
    && Sorted(h)
    && (forall i :: 0 <= i < |h| ==> h[i].time <= now)
    && (forall i :: 0 <= i < |h| ==> 0.0 <= h[i].openness <= 1.0)
  }

  /** One ingestion keeps the history bounded and ordered and leaves only entries from the
      last 500 ms. */
  lemma IngestKeepsWindow(h: seq<Sample>, normalized: real, now: int)
    requires HistoryOk(h, now)
    requires 0.0 <= normalized <= 1.0
    ensures var r := Ingest(h, normalized, now);
      && HistoryOk(r, now)
      && forall i :: 0 <= i < |r| ==> now - HistoryWindowMs <= r[i].time <= now
  {
    var r := Ingest(h, normalized, now);
    SuffixPlusNewest(h, r, now);
  }

  /** A slice of an ordered history followed by one sample taken now, whose oldest entry is
      recent, is an ordered history inside the window. */
  lemma SuffixPlusNewest(h: seq<Sample>, r: seq<Sample>, now: int)
    requires HistoryOk(h, now)
    requires 0 < |r| <= HistoryCapacity && |r| <= |h| + 1
    requires Last(r).time == now && 0.0 <= Last(r).openness <= 1.0
    requires now - r[0].time <= HistoryWindowMs
    requires r[..|r| - 1] == h[|h| + 1 - |r|..]
    ensures HistoryOk(r, now)
    ensures forall i :: 0 <= i < |r| ==> now - HistoryWindowMs <= r[i].time <= now
  {
    var n := |r|;
    var off := |h| + 1 - n;
    assert forall i :: 0 <= i < n - 1 ==> r[i] == h[off + i] by {
      forall i | 0 <= i < n - 1 ensures r[i] == h[off + i] {
        assert r[..n - 1][i] == r[i];
        assert h[off..][i] == h[off + i];
      }
    }
    assert Sorted(r) by {
      forall i, j | 0 <= i < j < n ensures r[i].time <= r[j].time {
        if j < n - 1 {
          assert r[i] == h[off + i] && r[j] == h[off + j];
        } else {
          assert r[i].time <= now;
        }
      }
    }
    forall i | 0 <= i < n ensures now - HistoryWindowMs <= r[i].time <= now {
      assert r[0].time <= r[i].time;
    }
  }

  /** Every Process call that ingests keeps the history invariant, and afterwards every
      entry lies within the 500 ms window ending now. */
  lemma ProcessKeepsWindow(cfg: DetectorConfig, d: Detector, upperLidY: real, lowerLidY: real,
                           click: Point, now: int)
    requires HistoryOk(d.history, now)
    ensures var o := Process(cfg, d, upperLidY, lowerLidY, click, now);
      o.Stepped? ==>
        && HistoryOk(o.next.history, now)
        && forall i :: 0 <= i < |o.next.history| ==> now - HistoryWindowMs <= o.next.history[i].time <= now
  {
    var openness := Openness(upperLidY, lowerLidY);
    if d.baselineSet {
      match Normalize(openness, d.baselineOpenness)
      case None =>
      case Some(normalized) =>
        IngestKeepsWindow(d.history, normalized, now);
    }
  }

  /** Eviction only looks at the oldest entry, so once the clock has stepped back a stale
      entry can hide behind a newer one: here an entry 600 ms old survives. */
  lemma BackwardClockDefeatsWindow()
    ensures var h := [Sample(1000, 1.0, 0.0, 0.0), Sample(100, 1.0, 0.0, 0.0), Sample(700, 1.0, 0.0, 0.0)];
            var r := EvictStale(h, 700);
            r == h && 700 - r[1].time > HistoryWindowMs
  {
  }

  // ---------------------------------------------------------------------------
  // Runs: a stream of observations and resets

  datatype Input = Frame(upperLidY: real, lowerLidY: real, click: Point, now: int) | ResetRequest

  /** A gesture together with the time of the observation that raised it. */
  datatype Timed = Timed(time: int, gesture: Gesture)

  /** Feeds the inputs in order, collecting the gestures. A NotANumber outcome ends the run. */
  function Run(cfg: DetectorConfig, d: Detector, inputs: seq<Input>): (r: (Detector, seq<Timed>))
    ensures |r.1| <= |inputs|
    decreases |inputs|
  {
    if |inputs| == 0 then (d, [])
    else match inputs[0]
      case ResetRequest => Run(cfg, Reset(d), inputs[1..])
      case Frame(upper, lower, click, now) =>
        match Process(cfg, d, upper, lower, click, now)
        case NotANumber => (d, [])
        case Stepped(next, event) =>
          var (final, rest) := Run(cfg, next, inputs[1..]);
          (final, (if event.Some? then [Timed(now, event.value)] else []) + rest)
  }

  /** Frame timestamps never go below `t` and never step back. */
  predicate ClockFrom(inputs: seq<Input>, t: int)
    decreases |inputs|
  {
    |inputs| == 0 ||
    match inputs[0]
    case ResetRequest => ClockFrom(inputs[1..], t)
    case Frame(_, _, _, now) => t <= now && ClockFrom(inputs[1..], now)
  }

  predicate NoResets(inputs: seq<Input>) {
    forall i :: 0 <= i < |inputs| ==> inputs[i].Frame?
  }

  /** Every tap in `evs` comes at least 250 ms after `since`, and any two taps are at least
      250 ms apart. */
  predicate TapsSpaced(evs: seq<Timed>, since: int) {
    && (forall i :: 0 <= i < |evs| && evs[i].gesture.Tap? ==> evs[i].time >= since + TapCooldownMs)
    && (forall i, j :: 0 <= i < j < |evs| && evs[i].gesture.Tap? && evs[j].gesture.Tap? ==>
          evs[j].time - evs[i].time >= TapCooldownMs)
  }

  /** Tap cooldown over a whole run: every tap comes at least 250 ms after the detector's
      last action, and any two taps are at least 250 ms apart; resets do not shorten it. */
  lemma {:induction false} TapsAreSpaced(cfg: DetectorConfig, d: Detector, inputs: seq<Input>, t: int)
    requires ClockFrom(inputs, t) && d.lastActionTime <= t
    ensures TapsSpaced(Run(cfg, d, inputs).1, d.lastActionTime)
    decreases |inputs|
  {
    if |inputs| > 0 {
      match inputs[0]
      case ResetRequest =>
        assert ClockFrom(inputs[1..], t);
        assert Run(cfg, d, inputs) == Run(cfg, Reset(d), inputs[1..]);
        TapsAreSpaced(cfg, Reset(d), inputs[1..], t);
      case Frame(upper, lower, click, now) =>
        assert t <= now && ClockFrom(inputs[1..], now);
        match Process(cfg, d, upper, lower, click, now)
        case NotANumber =>
        case Stepped(next, event) =>
          StepKeepsCooldown(cfg, d, upper, lower, click, now);
          TapsAreSpaced(cfg, next, inputs[1..], now);
          var rest := Run(cfg, next, inputs[1..]).1;
          if event.Some? {
            assert Run(cfg, d, inputs).1 == [Timed(now, event.value)] + rest;
            ConsKeepsSpacing(Timed(now, event.value), rest, d.lastActionTime, next.lastActionTime);
          } else {
            assert Run(cfg, d, inputs).1 == rest;
          }
    }
  }

  /** A gesture followed by a spaced rest is spaced, given the cooldown facts of the
      observation that raised it. */
  lemma ConsKeepsSpacing(first: Timed, rest: seq<Timed>, before: int, after: int)
    requires TapsSpaced(rest, after) && before <= after
    requires first.gesture.Tap? ==> first.time - before >= TapCooldownMs && after == first.time
    ensures TapsSpaced([first] + rest, before)
  {
    var evs := [first] + rest;
    assert forall i :: 0 <= i < |evs| && evs[i].gesture.Tap? ==> evs[i].time >= before + TapCooldownMs by {
      forall i | 0 <= i < |evs| && evs[i].gesture.Tap?
        ensures evs[i].time >= before + TapCooldownMs
      {
        if i > 0 {
          assert evs[i] == rest[i - 1];
        }
      }
    }
    forall i, j | 0 <= i < j < |evs| && evs[i].gesture.Tap? && evs[j].gesture.Tap?
      ensures evs[j].time - evs[i].time >= TapCooldownMs
    {
      assert evs[j] == rest[j - 1];
      if i > 0 {
        assert evs[i] == rest[i - 1];
      }
    }
  }

  /** One observation with respect to the cooldown: the last action never moves back, never
      passes the present, a tap comes at least 250 ms after the previous action, and a tap
      resets the cooldown to now. */
  lemma StepKeepsCooldown(cfg: DetectorConfig, d: Detector, upperLidY: real, lowerLidY: real, click: Point,
                          now: int)
    requires d.lastActionTime <= now
    ensures var o := Process(cfg, d, upperLidY, lowerLidY, click, now);
      o.Stepped? ==>
        && d.lastActionTime <= o.next.lastActionTime <= now
        && (o.event.Some? && o.event.value.Tap? ==>
              now - d.lastActionTime >= TapCooldownMs && o.next.lastActionTime == now)
  {
  }

  /** The cooldown measures from the last action's clock reading, so a clock that steps
      back moves it back: a tap at 1000 ms, a drag start read at 500 ms, and a second tap at
      1100 ms, only 100 ms after the first. */
  lemma BackwardClockDefeatsCooldown(click: Point)
    ensures var (d1, e1) := Classify(DefaultConfig, Detector(TapAt1000, 0, Idle, 1.0, true), click, 1000);
            var (d2, e2) := Classify(DefaultConfig, d1.(history := DragAt500), click, 500);
            var (d3, e3) := Classify(DefaultConfig, d2.(history := TapAt1100), click, 1100);
            && e1 == Some(Tap(click)) && e2 == Some(DragStart(click)) && e3 == Some(Tap(click))
            && !TapsSpaced([Timed(1000, Tap(click)), Timed(500, DragStart(click)), Timed(1100, Tap(click))], 0)
  {
    var evs := [Timed(1000, Tap(click)), Timed(500, DragStart(click)), Timed(1100, Tap(click))];
    assert evs[2].time - evs[0].time < TapCooldownMs;
  }

  function Flip(m: Mode): Mode {
    if m == Idle then HalfBlinking else Idle
  }

  /** The drag gestures of a run, in order. */
  function DragGestures(evs: seq<Timed>): (gs: seq<Gesture>)
    ensures forall k :: 0 <= k < |gs| ==> !gs[k].Tap?
  {
    if |evs| == 0 then []
    else (if evs[0].gesture.Tap? then [] else [evs[0].gesture]) + DragGestures(evs[1..])
  }

  /** DragStart and DragEnd alternate, the first one matching the mode `m`. */
  predicate Alternating(gs: seq<Gesture>, m: Mode)
    decreases |gs|
  {
    |gs| == 0 ||
    ((if m == Idle then gs[0].DragStart? else gs[0] == DragEnd) && Alternating(gs[1..], Flip(m)))
  }

  /** Over a run without resets, drag gestures strictly alternate, starting with DragStart
      from Idle (and with DragEnd from HalfBlinking). */
  lemma {:induction false} DragGesturesAlternate(cfg: DetectorConfig, d: Detector, inputs: seq<Input>)
    requires NoResets(inputs)
    ensures Alternating(DragGestures(Run(cfg, d, inputs).1), d.mode)
    decreases |inputs|
  {
    if |inputs| > 0 {
      var f := inputs[0];
      assert inputs == [f] + inputs[1..];
      assert NoResets(inputs[1..]) by {
        forall i | 0 <= i < |inputs[1..]| ensures inputs[1..][i].Frame? {
          assert inputs[1..][i] == inputs[i + 1];
        }
      }
      var o := Process(cfg, d, f.upperLidY, f.lowerLidY, f.click, f.now);
      if o.Stepped? {
        DragGesturesAlternate(cfg, o.next, inputs[1..]);
        StepModes(cfg, d, f.upperLidY, f.lowerLidY, f.click, f.now);
        RunFrame(cfg, d, f, inputs[1..]);
        AlternatingStep(d.mode, o.next.mode, o.event, f.now, Run(cfg, o.next, inputs[1..]).1);
      }
    }
  }

  /** One step of the alternation, independent of the detector: a gesture that changes the
      mode as a drag gesture does extends an alternating tail. */
  lemma AlternatingStep(m: Mode, next: Mode, event: Option<Gesture>, now: int, rest: seq<Timed>)
    requires event.None? || event.value.Tap? ==> next == m
    requires event.Some? && event.value.DragStart? ==> m == Idle && next == HalfBlinking
    requires event.Some? && event.value.DragEnd? ==> m == HalfBlinking && next == Idle
    requires Alternating(DragGestures(rest), next)
    ensures Alternating(DragGestures((if event.Some? then [Timed(now, event.value)] else []) + rest), m)
  {
    if event.Some? {
      DragGesturesCons(Timed(now, event.value), rest);
      if event.value.Tap? {
        assert [] + DragGestures(rest) == DragGestures(rest);
      } else {
        assert next == Flip(m);
        AlternatingCons(event.value, DragGestures(rest), m);
      }
    } else {
      assert [] + rest == rest;
    }
  }

  /** How one observation moves the drag mode: only DragStart and DragEnd change it. */
  lemma StepModes(cfg: DetectorConfig, d: Detector, upperLidY: real, lowerLidY: real, click: Point, now: int)
    ensures var o := Process(cfg, d, upperLidY, lowerLidY, click, now);
      o.Stepped? ==>
        && (o.event.None? || o.event.value.Tap? ==> o.next.mode == d.mode)
        && (o.event.Some? && o.event.value.DragStart? ==> d.mode == Idle && o.next.mode == HalfBlinking)
        && (o.event.Some? && o.event.value.DragEnd? ==> d.mode == HalfBlinking && o.next.mode == Idle)
  {
  }

  lemma DragGesturesCons(first: Timed, rest: seq<Timed>)
    ensures DragGestures([first] + rest)
         == (if first.gesture.Tap? then [] else [first.gesture]) + DragGestures(rest)
  {
    assert ([first] + rest)[1..] == rest;
  }

  lemma AlternatingCons(g: Gesture, gs: seq<Gesture>, m: Mode)
    requires if m == Idle then g.DragStart? else g == DragEnd
    requires Alternating(gs, Flip(m))
    ensures Alternating([g] + gs, m)
  {
    assert ([g] + gs)[1..] == gs;
  }

  /** Over a run with a clock that never steps back, the history invariant holds throughout. */
  lemma {:induction false} RunKeepsHistoryOk(cfg: DetectorConfig, d: Detector, inputs: seq<Input>, t: int)
    requires ClockFrom(inputs, t) && HistoryOk(d.history, t)
    ensures |Run(cfg, d, inputs).0.history| <= HistoryCapacity
    ensures Sorted(Run(cfg, d, inputs).0.history)
    ensures forall s :: s in Run(cfg, d, inputs).0.history ==> 0.0 <= s.openness <= 1.0
    decreases |inputs|
  {
    if |inputs| > 0 {
      match inputs[0]
      case ResetRequest =>
        RunKeepsHistoryOk(cfg, Reset(d), inputs[1..], t);
      case Frame(upper, lower, click, now) =>
        assert HistoryOk(d.history, now);
        ProcessKeepsWindow(cfg, d, upper, lower, click, now);
        match Process(cfg, d, upper, lower, click, now)
        case NotANumber =>
        case Stepped(next, event) =>
          RunKeepsHistoryOk(cfg, next, inputs[1..], now);
    }
  }

  /** The cooldown and everything else but the two thresholds are independent of
      `clickDelayThreshold`. */
  lemma ClickDelayIsIgnored(cfg: DetectorConfig, delay: int, d: Detector, upperLidY: real, lowerLidY: real,
                            click: Point, now: int)
    ensures Process(cfg.(clickDelayThreshold := delay), d, upperLidY, lowerLidY, click, now)
         == Process(cfg, d, upperLidY, lowerLidY, click, now)
  {
    if d.baselineSet {
      var normalized := Normalize(Openness(upperLidY, lowerLidY), d.baselineOpenness);
      if normalized.Some? {
        ClassifyIgnoresDelay(cfg, delay, d.(history := Ingest(d.history, normalized.value, now)), click, now);
      }
    }
  }

  lemma ClassifyIgnoresDelay(cfg: DetectorConfig, delay: int, d: Detector, click: Point, now: int)
    ensures Classify(cfg.(clickDelayThreshold := delay), d, click, now) == Classify(cfg, d, click, now)
  {
    var cfg' := cfg.(clickDelayThreshold := delay);
    assert TapFires(cfg', d.history, d.lastActionTime, now) == TapFires(cfg, d.history, d.lastActionTime, now);
    assert DragStartFires(cfg', d.history, d.mode) == DragStartFires(cfg, d.history, d.mode);
  }

  /** After a reset the next observation only recalibrates: no gesture, empty history. */
  lemma ResetForcesRecalibration(cfg: DetectorConfig, d: Detector, upperLidY: real, lowerLidY: real,
                                 click: Point, now: int)
    ensures var o := Process(cfg, Reset(d), upperLidY, lowerLidY, click, now);
      && o.Stepped? && o.event.None? && o.next.history == []
      && o.next.baselineOpenness == Openness(upperLidY, lowerLidY)
      && o.next.lastActionTime == d.lastActionTime
  {
  }

  // ---------------------------------------------------------------------------
  // Worked scenarios: fixed detectors, histories and input streams

  /** Histories for the backward-clock example: a close and sharp reopen ending at 1000 ms
      and at 1100 ms, and a sharp half close ending at 500 ms. */
  const TapAt1000 := [Sample(900, 1.0, 0.0, 0.0), Sample(950, 0.5, -5.0, -25.0), Sample(1000, 1.0, 2.0, 20.0)]
  const DragAt500 := [Sample(450, 1.0, 0.0, 0.0), Sample(500, 0.5, -10.0, -200.0)]
  const TapAt1100 := [Sample(1000, 1.0, 0.0, 0.0), Sample(1050, 0.5, -5.0, -25.0), Sample(1100, 1.0, 2.0, 20.0)]

  /** Calibration on an open eye at time 0, the eye open at 100 and 200 ms, then half
      closed (openness 0.5) at 300 ms. */
  function OpenThenHalfClosed(click: Point): seq<Input> {
    [Frame(0.0, 1.0, click, 0), Frame(0.0, 1.0, click, 100), Frame(0.0, 1.0, click, 200),
     Frame(0.25, 0.75, click, 300)]
  }

  /** The detector after `OpenThenHalfClosed`: the half close has started a drag. */
  const HalfClosed := Detector([Sample(100, 1.0, 0.0, 0.0), Sample(200, 1.0, 0.0, 0.0),
                                Sample(300, 0.5, -5.0, -25.0)], 300, HalfBlinking, 1.0, true)

  /** The detector after calibration, and after the open samples at 100 and 200 ms. */
  const Calibrated := Detector([], 0, Idle, 1.0, true)
  const OpenOnce := Detector([Sample(100, 1.0, 0.0, 0.0)], 0, Idle, 1.0, true)
  const OpenTwice := Detector([Sample(100, 1.0, 0.0, 0.0), Sample(200, 1.0, 0.0, 0.0)], 0, Idle, 1.0, true)

  lemma CalibrateAt0(click: Point)
    ensures Process(DefaultConfig, Initial, 0.0, 1.0, click, 0) == Stepped(Calibrated, None)
  {
  }

  lemma OpenAt100(click: Point)
    ensures Process(DefaultConfig, Calibrated, 0.0, 1.0, click, 100) == Stepped(OpenOnce, None)
  {
    assert Normalize(Openness(0.0, 1.0), 1.0) == Some(1.0);
    IngestFirstOpen();
    ClassifyFirstOpen(click);
    assert Calibrated.(history := OpenOnce.history) == OpenOnce;
  }

  lemma ClassifyFirstOpen(click: Point)
    ensures Classify(DefaultConfig, OpenOnce, click, 100) == (OpenOnce, None)
  {
    assert !DragStartFires(DefaultConfig, OpenOnce.history, Idle) && !DragEndFires(OpenOnce.history, Idle);
  }

  lemma IngestFirstOpen()
    ensures Ingest([], 1.0, 100) == [Sample(100, 1.0, 0.0, 0.0)]
  {
    assert Newest([], 1.0, 100) == Sample(100, 1.0, 0.0, 0.0);
    assert Cap([] + [Sample(100, 1.0, 0.0, 0.0)]) == [Sample(100, 1.0, 0.0, 0.0)];
    assert FirstFresh([Sample(100, 1.0, 0.0, 0.0)], 0, 100) == 0;
  }

  lemma OpenAt200(click: Point)
    ensures Process(DefaultConfig, OpenOnce, 0.0, 1.0, click, 200) == Stepped(OpenTwice, None)
  {
    var h1 := [Sample(100, 1.0, 0.0, 0.0)];
    var h2 := h1 + [Sample(200, 1.0, 0.0, 0.0)];
    assert Normalize(Openness(0.0, 1.0), 1.0) == Some(1.0);
    IngestSecondOpen();
    assert !DragStartFires(DefaultConfig, h2, Idle) && !DragEndFires(h2, Idle);
  }

  lemma IngestSecondOpen()
    ensures Ingest([Sample(100, 1.0, 0.0, 0.0)], 1.0, 200) == [Sample(100, 1.0, 0.0, 0.0), Sample(200, 1.0, 0.0, 0.0)]
  {
    assert Rate(1.0 - 1.0, ElapsedMs(200, 100)) == 0.0;
    assert FirstFresh([Sample(100, 1.0, 0.0, 0.0), Sample(200, 1.0, 0.0, 0.0)], 0, 200) == 0;
  }

  lemma HalfClosedAt300(click: Point)
    ensures Process(DefaultConfig, OpenTwice, 0.25, 0.75, click, 300)
         == Stepped(HalfClosed, Some(DragStart(click)))
  {
    assert Normalize(Openness(0.25, 0.75), 1.0) == Some(0.5);
    IngestHalfClose();
    ClassifyHalfClose(click);
  }

  lemma IngestHalfClose()
    ensures Ingest([Sample(100, 1.0, 0.0, 0.0), Sample(200, 1.0, 0.0, 0.0)], 0.5, 300) == HalfClosed.history
  {
    var h := HalfClosed.history;
    assert Rate(0.5 - 1.0, ElapsedMs(300, 200)) == -5.0;
    assert Rate(-5.0 - 0.0, ElapsedMs(300, 100)) == -25.0;
    assert FirstFresh(h, 0, 300) == 0;
  }

  /** The half-closed sample is no tap (the close before it was not sharp) but starts a drag. */
  lemma ClassifyHalfClose(click: Point)
    ensures Classify(DefaultConfig, OpenTwice.(history := HalfClosed.history), click, 300)
         == (HalfClosed, Some(DragStart(click)))
  {
    var h := HalfClosed.history;
    assert |h| == 3 && h[2].acceleration == -25.0 && h[1].acceleration == 0.0;
    assert !TapPattern(DefaultConfig, h[1], h[2]);
    assert Abs(-25.0 - 0.0) == 25.0;
    assert DragStartFires(DefaultConfig, h, Idle);
  }

  /** One frame of a run that does not stop: its gesture, if any, then the rest. */
  lemma RunFrame(cfg: DetectorConfig, d: Detector, f: Input, rest: seq<Input>)
    requires f.Frame? && Process(cfg, d, f.upperLidY, f.lowerLidY, f.click, f.now).Stepped?
    ensures var o := Process(cfg, d, f.upperLidY, f.lowerLidY, f.click, f.now);
            var tail := Run(cfg, o.next, rest);
            Run(cfg, d, [f] + rest)
            == (tail.0, (if o.event.Some? then [Timed(f.now, o.event.value)] else []) + tail.1)
  {
    assert ([f] + rest)[1..] == rest;
  }

  /** A frame that raises nothing leaves the rest of the run to the next detector. */
  lemma QuietFrame(cfg: DetectorConfig, d: Detector, f: Input, rest: seq<Input>, next: Detector)
    requires f.Frame? && Process(cfg, d, f.upperLidY, f.lowerLidY, f.click, f.now) == Stepped(next, None)
    ensures Run(cfg, d, [f] + rest) == Run(cfg, next, rest)
  {
    RunFrame(cfg, d, f, rest);
    assert [] + Run(cfg, next, rest).1 == Run(cfg, next, rest).1;
  }

  /** A run whose first four inputs are `OpenThenHalfClosed` reports the drag start at 300 ms
      and continues from `HalfClosed`. */
  lemma HalfCloseStartsDrag(click: Point, rest: seq<Input>)
    ensures Run(DefaultConfig, Initial, OpenThenHalfClosed(click) + rest)
         == (Run(DefaultConfig, HalfClosed, rest).0, [Timed(300, DragStart(click))] + Run(DefaultConfig, HalfClosed, rest).1)
  {
    var f0, f1, f2, f3 := Frame(0.0, 1.0, click, 0), Frame(0.0, 1.0, click, 100), Frame(0.0, 1.0, click, 200),
                          Frame(0.25, 0.75, click, 300);
    assert OpenThenHalfClosed(click) + rest == [f0] + ([f1] + ([f2] + ([f3] + rest)));
    HalfCloseFrom200(click, rest);
    OpenFrame100(click, [f2] + ([f3] + rest));
    CalibrateFrame(click, [f1] + ([f2] + ([f3] + rest)));
  }

  lemma CalibrateFrame(click: Point, rest: seq<Input>)
    ensures Run(DefaultConfig, Initial, [Frame(0.0, 1.0, click, 0)] + rest)
         == Run(DefaultConfig, Calibrated, rest)
  {
    CalibrateAt0(click);
    QuietFrame(DefaultConfig, Initial, Frame(0.0, 1.0, click, 0), rest, Calibrated);
  }

  lemma OpenFrame100(click: Point, rest: seq<Input>)
    ensures Run(DefaultConfig, Calibrated, [Frame(0.0, 1.0, click, 100)] + rest)
         == Run(DefaultConfig, OpenOnce, rest)
  {
    OpenAt100(click);
    QuietFrame(DefaultConfig, Calibrated, Frame(0.0, 1.0, click, 100), rest, OpenOnce);
  }

  lemma HalfCloseFrom200(click: Point, rest: seq<Input>)
    ensures Run(DefaultConfig, OpenOnce,
                [Frame(0.0, 1.0, click, 200)] + ([Frame(0.25, 0.75, click, 300)] + rest))
         == (Run(DefaultConfig, HalfClosed, rest).0, [Timed(300, DragStart(click))] + Run(DefaultConfig, HalfClosed, rest).1)
  {
    OpenAt200(click);
    QuietFrame(DefaultConfig, OpenOnce,
               Frame(0.0, 1.0, click, 200), [Frame(0.25, 0.75, click, 300)] + rest, OpenTwice);
    HalfClosedAt300(click);
    RunFrame(DefaultConfig, OpenTwice, Frame(0.25, 0.75, click, 300), rest);
  }

  /** Reopening fully 250 ms after the half close, while the first open samples are still in
      the window, completes the tap pattern: the run reports the drag start, then a Tap. */
  lemma TapScenario(click: Point)
    ensures Run(DefaultConfig, Initial, OpenThenHalfClosed(click) + [Frame(0.0, 1.0, click, 550)]).1
         == [Timed(300, DragStart(click)), Timed(550, Tap(click))]
  {
    var h4 := Ingest(HalfClosed.history, 1.0, 550);
    assert h4 == HalfClosed.history + [Sample(550, 1.0, 2.0, 20.0)];
    assert TapFires(DefaultConfig, h4, 300, 550);
    HalfCloseStartsDrag(click, [Frame(0.0, 1.0, click, 550)]);
  }

  /** The same blink reopening only 100 ms after the half close is inside the tap cooldown
      that the drag start began, so it ends the drag instead of tapping. */
  lemma QuickBlinkReadsAsDrag(click: Point)
    ensures Run(DefaultConfig, Initial, OpenThenHalfClosed(click) + [Frame(0.05, 0.95, click, 400)]).1
         == [Timed(300, DragStart(click)), Timed(400, DragEnd)]
  {
    var h4 := Ingest(HalfClosed.history, 0.9, 400);
    assert h4 == HalfClosed.history + [Sample(400, 0.9, 4.0, 45.0)];
    assert !TapFires(DefaultConfig, h4, 300, 400);
    assert DragEndFires(h4, HalfBlinking);
    HalfCloseStartsDrag(click, [Frame(0.05, 0.95, click, 400)]);
  }
}

=== FILE: eye_tracker.dfy ===
/**
 Landmark geometry: from one frame of normalized face landmarks to eye regions,
 eyelid extents, pupil estimates, a gaze point, a distance proxy and the
 position-effect inputs of the position mapper. Everything here is a pure
 function of the landmark list, the one-eye setting and the display size.
 */
module EyeTracker {
  import opened Common

  /** Eye-contour landmark indices of the face mesh (the user's right eye, then left eye). */
  const LeftEyeLineIndices: seq<int> :=
    [33, 7, 163, 144, 145, 153, 154, 155, 133, 173, 157, 158, 159, 160, 161, 246]
  const RightEyeLineIndices: seq<int> :=
    [362, 382, 381, 380, 374, 373, 390, 249, 263, 466, 388, 387, 386, 385, 384, 398]

  /** Dedicated pupil landmarks; they only exist when the detector reports iris points. */
  const LeftEyePupilCenter: int := 468
  const RightEyePupilCenter: int := 473

  /** Largest eye-region area expected, in normalized units; the distance proxy saturates here. */
  const MaxExpectedArea: real := 0.01

  /** Share of the pupil midpoint in the two-eye gaze blend (the rest goes to the region centre). */
  const PupilWeight: real := 0.6
  const RegionWeight: real := 0.4

  /** Fraction of the landmark bounding box kept by the eye-region inset. */
  const InsetFactor: real := 0.8

  datatype EyeRegion = EyeRegion(center: Point, left: real, top: real, right: real, bottom: real,
                                 width: real, height: real)

  datatype EyelidLandmarks = EyelidLandmarks(upperLidY: real, lowerLidY: real)

  /** What one frame yields. `combinedCenter` is the final gaze point and `eyeArea`
      the distance proxy (0 = closest); both names are the source's own. */
  datatype TrackingResult = TrackingResult(
    leftEyeRegion: Option<EyeRegion>,
    rightEyeRegion: Option<EyeRegion>,
    combinedCenter: Option<Point>,
    screenX: real,
    screenY: real,
    eyeArea: real,
    eyePositionX: real,
    eyePositionY: real,
    leftEyelidLandmarks: Option<EyelidLandmarks>,
    rightEyelidLandmarks: Option<EyelidLandmarks>)

  /** Screen size in pixels. */
  datatype Display = Display(widthPixels: nat, heightPixels: nat)

  /** Raw axis-aligned bounding box of a set of points. */
  datatype Box = Box(minX: real, maxX: real, minY: real, maxY: real)

  datatype Axis = X | Y

  function Coord(p: Point, axis: Axis): real {
    if axis == X then p.x else p.y
  }

  predicate InRange(landmarks: seq<Point>, index: int) {
    0 <= index < |landmarks|
  }

  /** `landmarks.getOrNull(index)`. */
  function GetOrNull(landmarks: seq<Point>, index: int): (r: Option<Point>)
    ensures r.Some? <==> InRange(landmarks, index)
    ensures r.Some? ==> r.value == landmarks[index]
  {
    if InRange(landmarks, index) then Some(landmarks[index]) else None
  }

  /** `indices.mapNotNull { landmarks.getOrNull(it) }`: the listed landmarks that exist,
      in list order; indices outside the landmark list are skipped silently. */
  function Resolve(landmarks: seq<Point>, indices: seq<int>): (pts: seq<Point>)
    ensures |pts| <= |indices|
    ensures |pts| == 0 <==> forall k :: 0 <= k < |indices| ==> !InRange(landmarks, indices[k])
    ensures forall k :: 0 <= k < |indices| && InRange(landmarks, indices[k]) ==> landmarks[indices[k]] in pts
    ensures forall p :: p in pts ==>
              exists k :: 0 <= k < |indices| && InRange(landmarks, indices[k]) && p == landmarks[indices[k]]
  {
    if |indices| == 0 then []
    else
      var rest := Resolve(landmarks, indices[1..]);
      assert forall k :: 1 <= k < |indices| ==> indices[k] == indices[1..][k - 1];
      match GetOrNull(landmarks, indices[0])
      case Some(p) => [p] + rest
      case None => rest
  }

  /** When every index exists, nothing is skipped: the points are the indexed landmarks,
      one per index, in list order. */
  lemma {:induction false} ResolveAllInRange(landmarks: seq<Point>, indices: seq<int>)
    requires forall k :: 0 <= k < |indices| ==> InRange(landmarks, indices[k])
    ensures |Resolve(landmarks, indices)| == |indices|
    ensures forall i :: 0 <= i < |indices| ==> Resolve(landmarks, indices)[i] == landmarks[indices[i]]
  {
    if |indices| > 0 {
      var tail := indices[1..];
      assert forall k :: 0 <= k < |tail| ==> tail[k] == indices[k + 1];
      ResolveAllInRange(landmarks, tail);
      var r, rest := Resolve(landmarks, indices), Resolve(landmarks, tail);
      assert GetOrNull(landmarks, indices[0]) == Some(landmarks[indices[0]]);
      assert r == [landmarks[indices[0]]] + rest;
      forall i | 0 < i < |indices|
        ensures r[i] == landmarks[indices[i]]
      {
        assert r[i] == rest[i - 1] && tail[i - 1] == indices[i];
      }
    }
  }

  /** Resolving a concatenated index list resolves each part in turn: the surviving
      landmarks keep their list order and their multiplicity. */
  lemma {:induction false} ResolveAppend(landmarks: seq<Point>, a: seq<int>, b: seq<int>)
    ensures Resolve(landmarks, a + b) == Resolve(landmarks, a) + Resolve(landmarks, b)
    decreases |a|
  {
    if |a| > 0 {
      assert (a + b)[0] == a[0];
      assert (a + b)[1..] == a[1..] + b;
      ResolveAppend(landmarks, a[1..], b);
    } else {
      assert a + b == b;
    }
  }

  function Xs(pts: seq<Point>): (xs: seq<real>)
    ensures |xs| == |pts|
    ensures forall i :: 0 <= i < |pts| ==> xs[i] == pts[i].x
  {
    seq(|pts|, i requires 0 <= i < |pts| => pts[i].x)
  }

  function Ys(pts: seq<Point>): (ys: seq<real>)
    ensures |ys| == |pts|
    ensures forall i :: 0 <= i < |pts| ==> ys[i] == pts[i].y
  {
    seq(|pts|, i requires 0 <= i < |pts| => pts[i].y)
  }

  /** The tight bounding box: it contains every point and each edge touches one. */
  function BoundsOf(pts: seq<Point>): (b: Box)
    requires |pts| > 0
    ensures forall p :: p in pts ==> b.minX <= p.x <= b.maxX && b.minY <= p.y <= b.maxY
    ensures exists p :: p in pts && p.x == b.minX
    ensures exists p :: p in pts && p.x == b.maxX
    ensures exists p :: p in pts && p.y == b.minY
    ensures exists p :: p in pts && p.y == b.maxY
    ensures b.minX <= b.maxX && b.minY <= b.maxY
  {
    var xs, ys := Xs(pts), Ys(pts);
    var b := Box(MinOf(xs), MaxOf(xs), MinOf(ys), MaxOf(ys));
    assert forall p :: p in pts ==> b.minX <= p.x <= b.maxX && b.minY <= p.y <= b.maxY by {
      forall p | p in pts
        ensures b.minX <= p.x <= b.maxX && b.minY <= p.y <= b.maxY
      {
        var i :| 0 <= i < |pts| && pts[i] == p;
        assert xs[i] == p.x && ys[i] == p.y;
      }
    }
    var i1 :| 0 <= i1 < |xs| && xs[i1] == b.minX;
    assert pts[i1] in pts;
    var i2 :| 0 <= i2 < |xs| && xs[i2] == b.maxX;
    assert pts[i2] in pts;
    var i3 :| 0 <= i3 < |ys| && ys[i3] == b.minY;
    assert pts[i3] in pts;
    var i4 :| 0 <= i4 < |ys| && ys[i4] == b.maxY;
    assert pts[i4] in pts;
    b
  }

  predicate WellFormedRegion(r: EyeRegion) {
    r.width >= 0.0 && r.height >= 0.0
  }

  /** `e` is the 80% inset of `b` about its centre: same centre, 80% of each extent,
      edges symmetric about the centre and inside the box. */
  predicate InsetOf(e: EyeRegion, b: Box) {
    && e.center == Point((b.minX + b.maxX) / 2.0, (b.minY + b.maxY) / 2.0)
    && e.width == InsetFactor * (b.maxX - b.minX)
    && e.height == InsetFactor * (b.maxY - b.minY)
    && e.right - e.left == e.width
    && e.bottom - e.top == e.height
    && e.center.x - e.left == e.right - e.center.x
    && e.center.y - e.top == e.bottom - e.center.y
    && b.minX <= e.left <= e.center.x <= e.right <= b.maxX
    && b.minY <= e.top <= e.center.y <= e.bottom <= b.maxY
  }

  /** The 80% inset of a box, about the box's centre. */
  function InsetRegion(b: Box): (e: EyeRegion)
    requires b.minX <= b.maxX && b.minY <= b.maxY
    ensures InsetOf(e, b)
    ensures WellFormedRegion(e)
  {
    var cx := (b.minX + b.maxX) / 2.0;
    var cy := (b.minY + b.maxY) / 2.0;
    var w := (b.maxX - b.minX) * InsetFactor;
    var h := (b.maxY - b.minY) * InsetFactor;
    EyeRegion(Point(cx, cy), cx - w / 2.0, cy - h / 2.0, cx + w / 2.0, cy + h / 2.0, w, h)
  }

  /** `calculateEyeRegion`: the 80% inset of the landmarks' bounding box, about the box's centre. */
  function CalculateEyeRegion(landmarks: seq<Point>, indices: seq<int>): (r: Option<EyeRegion>)
    ensures r.None? <==> forall k :: 0 <= k < |indices| ==> !InRange(landmarks, indices[k])
    ensures r.Some? ==> InsetOf(r.value, BoundsOf(Resolve(landmarks, indices)))
    ensures r.Some? ==> WellFormedRegion(r.value)
  {
    var pts := Resolve(landmarks, indices);
    if |indices| == 0 || |pts| == 0 then None
    else Some(InsetRegion(BoundsOf(pts)))
  }

  /** `extractEyelidLandmarks`: the topmost and bottommost Y of the eye contour. */
  function ExtractEyelidLandmarks(landmarks: seq<Point>, indices: seq<int>): (r: Option<EyelidLandmarks>)
    ensures r.None? <==> forall k :: 0 <= k < |indices| ==> !InRange(landmarks, indices[k])
    ensures r.Some? ==> r.value.upperLidY <= r.value.lowerLidY
    ensures r.Some? ==> forall p :: p in Resolve(landmarks, indices) ==>
                          r.value.upperLidY <= p.y <= r.value.lowerLidY
    ensures r.Some? ==> exists p :: p in Resolve(landmarks, indices) && p.y == r.value.upperLidY
    ensures r.Some? ==> exists p :: p in Resolve(landmarks, indices) && p.y == r.value.lowerLidY
  {
    var pts := Resolve(landmarks, indices);
    if |indices| == 0 || |pts| == 0 then None
    else
      var b := BoundsOf(pts);
      Some(EyelidLandmarks(b.minY, b.maxY))
  }

  /** Eyelids and region come from the same contour points: the lids span the raw box
      vertically, so the region is centred between them and is 80% as tall. */
  lemma EyelidsSpanRegion(landmarks: seq<Point>, indices: seq<int>)
    ensures CalculateEyeRegion(landmarks, indices).Some? <==> ExtractEyelidLandmarks(landmarks, indices).Some?
    ensures CalculateEyeRegion(landmarks, indices).Some? ==>
      var e := CalculateEyeRegion(landmarks, indices).value;
      var lids := ExtractEyelidLandmarks(landmarks, indices).value;
      && e.center.y == (lids.upperLidY + lids.lowerLidY) / 2.0
      && e.height == InsetFactor * (lids.lowerLidY - lids.upperLidY)
  {
  }

  /** Centroid of a non-empty point list: on each axis, the sum of the points'
      coordinates divided by their number. It lies inside the points' bounding box. */
  function Centroid(pts: seq<Point>): (c: Point)
    requires |pts| > 0
    ensures c.x == Sum(Xs(pts)) / (|pts| as real)
    ensures c.y == Sum(Ys(pts)) / (|pts| as real)
    ensures var b := BoundsOf(pts); b.minX <= c.x <= b.maxX && b.minY <= c.y <= b.maxY
  {
    MeanWithin(Xs(pts));
    MeanWithin(Ys(pts));
    Point(Mean(Xs(pts)), Mean(Ys(pts)))
  }

  /** `getPupilPosition`: the dedicated pupil landmark when it exists, else the contour centroid. */
  function GetPupilPosition(landmarks: seq<Point>, pupilIndex: int, indices: seq<int>): (r: Option<Point>)
    ensures InRange(landmarks, pupilIndex) ==> r == Some(landmarks[pupilIndex])
    ensures !InRange(landmarks, pupilIndex) ==>
              (r.None? <==> forall k :: 0 <= k < |indices| ==> !InRange(landmarks, indices[k]))
    ensures !InRange(landmarks, pupilIndex) && r.Some? ==>
              r.value == Centroid(Resolve(landmarks, indices))
    ensures !InRange(landmarks, pupilIndex) && r.Some? ==>
              var b := BoundsOf(Resolve(landmarks, indices));
              b.minX <= r.value.x <= b.maxX && b.minY <= r.value.y <= b.maxY
  {
    match GetOrNull(landmarks, pupilIndex)
    case Some(p) => Some(p)
    case None =>
      var pts := Resolve(landmarks, indices);
      if |pts| == 0 then None else Some(Centroid(pts))
  }

  /** Without any contour point there is no pupil estimate unless the dedicated landmark exists,
      so a missing pupil always comes with a missing region. */
  lemma MissingPupilMeansMissingRegion(landmarks: seq<Point>, pupilIndex: int, indices: seq<int>)
    requires GetPupilPosition(landmarks, pupilIndex, indices).None?
    ensures CalculateEyeRegion(landmarks, indices).None?
    ensures ExtractEyelidLandmarks(landmarks, indices).None?
  {
  }

  function Midpoint(a: Point, b: Point): Point {
    Point((a.x + b.x) / 2.0, (a.y + b.y) / 2.0)
  }

  /** Weighted gaze blend, 60% pupil midpoint and 40% region centre. */
  function Blend(pupils: Point, regions: Point): (g: Point)
    ensures pupils == regions ==> g == pupils
    ensures pupils.x <= regions.x ==> pupils.x <= g.x <= regions.x
    ensures regions.x <= pupils.x ==> regions.x <= g.x <= pupils.x
    ensures pupils.y <= regions.y ==> pupils.y <= g.y <= regions.y
    ensures regions.y <= pupils.y ==> regions.y <= g.y <= pupils.y
    ensures g.x - regions.x == PupilWeight * (pupils.x - regions.x)
    ensures g.y - regions.y == PupilWeight * (pupils.y - regions.y)
  {
    Point(pupils.x * PupilWeight + regions.x * RegionWeight,
          pupils.y * PupilWeight + regions.y * RegionWeight)
  }

  function CenterOf(r: Option<EyeRegion>): Option<Point> {
    if r.Some? then Some(r.value.center) else None
  }

  /** The region-centre estimate: one-eye mode prefers the right region; two-eye mode
      averages both centres when both exist. */
  function CombinedCenter(left: Option<EyeRegion>, right: Option<EyeRegion>, useOneEye: bool): (c: Option<Point>)
    ensures c.None? <==> left.None? && right.None?
    ensures useOneEye && right.Some? ==> c == Some(right.value.center)
    ensures useOneEye && right.None? && left.Some? ==> c == Some(left.value.center)
    ensures !useOneEye && left.Some? && right.Some? ==> c == Some(Midpoint(left.value.center, right.value.center))
    ensures left.Some? != right.Some? ==> c == CenterOf(left).OrElse(CenterOf(right))
  {
    if useOneEye then CenterOf(right).OrElse(CenterOf(left))
    else if left.Some? && right.Some? then Some(Midpoint(left.value.center, right.value.center))
    else CenterOf(left).OrElse(CenterOf(right))
  }

  /** The gaze point. One-eye mode takes the right pupil, then the left pupil, then the
      region centre. Two-eye mode blends both pupils with the region centre, else takes
      whichever pupil exists, else the region centre. */
  function FinalPoint(leftPupil: Option<Point>, rightPupil: Option<Point>, combined: Option<Point>,
                      useOneEye: bool): (f: Option<Point>)
    ensures f.None? <==> leftPupil.None? && rightPupil.None? && combined.None?
    ensures useOneEye ==> f == rightPupil.OrElse(leftPupil).OrElse(combined)
    ensures !useOneEye && leftPupil.Some? && rightPupil.Some? && combined.Some? ==>
              f == Some(Blend(Midpoint(leftPupil.value, rightPupil.value), combined.value))
    ensures !useOneEye && leftPupil.Some? && rightPupil.Some? && combined.None? ==>
              f == Some(Midpoint(leftPupil.value, rightPupil.value))
    ensures !useOneEye && (leftPupil.Some? != rightPupil.Some?) ==> f == leftPupil.OrElse(rightPupil)
    ensures !useOneEye && leftPupil.None? && rightPupil.None? ==> f == combined
  {
    if useOneEye then rightPupil.OrElse(leftPupil).OrElse(combined)
    else if leftPupil.Some? && rightPupil.Some? then
      var pupils := Midpoint(leftPupil.value, rightPupil.value);
      if combined.Some? then Some(Blend(pupils, combined.value)) else Some(pupils)
    else leftPupil.OrElse(rightPupil).OrElse(combined)
  }

  function RegionArea(r: EyeRegion): real {
    r.width * r.height
  }

  /** Combined eye area: the mean of both regions' areas, or the one region's area, or 0. */
  function EyeArea(left: Option<EyeRegion>, right: Option<EyeRegion>): (a: real)
    ensures left.None? && right.None? ==> a == 0.0
    ensures (left.Some? ==> WellFormedRegion(left.value)) && (right.Some? ==> WellFormedRegion(right.value))
            ==> a >= 0.0
    ensures left.Some? && right.Some? ==>
              MinOf([RegionArea(left.value), RegionArea(right.value)]) <= a
              <= MaxOf([RegionArea(left.value), RegionArea(right.value)])
    ensures left.Some? && right.Some? ==> a == (RegionArea(left.value) + RegionArea(right.value)) / 2.0
    ensures left.Some? && right.None? ==> a == RegionArea(left.value)
    ensures left.None? && right.Some? ==> a == RegionArea(right.value)
  {
    if left.Some? && right.Some? then (RegionArea(left.value) + RegionArea(right.value)) / 2.0
    else if left.Some? then RegionArea(left.value)
    else if right.Some? then RegionArea(right.value)
    else 0.0
  }

  /** Normalized distance proxy: 0 for an area at or beyond `MaxExpectedArea` (closest),
      towards 1 as the area shrinks; exactly 0 when there is no positive area at all. */
  function DistanceProxy(area: real): (d: real)
    ensures 0.0 <= d <= 1.0
    ensures area <= 0.0 ==> d == 0.0
    ensures area >= MaxExpectedArea ==> d == 0.0
    ensures 0.0 < area < MaxExpectedArea ==> 0.0 < d < 1.0
    ensures 0.0 < area <= MaxExpectedArea ==> d * MaxExpectedArea == MaxExpectedArea - area
  {
    if area > 0.0 then
      (MaxExpectedArea - (if area < MaxExpectedArea then area else MaxExpectedArea)) / MaxExpectedArea
    else 0.0
  }

  /** Among positive areas, a larger area never reads as farther away. */
  lemma DistanceProxyAntitone(a1: real, a2: real)
    requires 0.0 < a1 <= a2
    ensures DistanceProxy(a2) <= DistanceProxy(a1)
  {
  }

  /** A quarter of the expected maximum area reads as three quarters of the way out. */
  lemma DistanceProxyExample()
    ensures DistanceProxy(0.0025) == 0.75
    ensures DistanceProxy(0.02) == 0.0
  {
  }

  function CoordOf(p: Option<Point>, axis: Axis): Option<real> {
    if p.Some? then Some(Coord(p.value, axis)) else None
  }

  function MeanOfBoth(a: Option<real>, b: Option<real>): Option<real> {
    if a.Some? && b.Some? then Some((a.value + b.value) / 2.0) else None
  }

  /** Position-effect input on one axis, through its fixed chain of fallbacks: both region
      centres, both pupils, left region, right region, left pupil, right pupil, gaze point, 0.5. */
  function EyePosition(left: Option<EyeRegion>, right: Option<EyeRegion>,
                       leftPupil: Option<Point>, rightPupil: Option<Point>,
                       finalPoint: Option<Point>, axis: Axis): (v: real)
    ensures if left.Some? && right.Some? then v == (Coord(left.value.center, axis) + Coord(right.value.center, axis)) / 2.0
      else if leftPupil.Some? && rightPupil.Some? then v == (Coord(leftPupil.value, axis) + Coord(rightPupil.value, axis)) / 2.0
      else if left.Some? then v == Coord(left.value.center, axis)
      else if right.Some? then v == Coord(right.value.center, axis)
      else if leftPupil.Some? then v == Coord(leftPupil.value, axis)
      else if rightPupil.Some? then v == Coord(rightPupil.value, axis)
      else if finalPoint.Some? then v == Coord(finalPoint.value, axis)
      else v == 0.5
  {
    var l, r := CoordOf(CenterOf(left), axis), CoordOf(CenterOf(right), axis);
    var lp, rp := CoordOf(leftPupil, axis), CoordOf(rightPupil, axis);
    MeanOfBoth(l, r).OrElse(MeanOfBoth(lp, rp)).OrElse(l).OrElse(r).OrElse(lp).OrElse(rp)
      .OrElse(CoordOf(finalPoint, axis)).GetOr(0.5)
  }

  /** The base screen coordinate: the gaze point scaled to the screen, or the screen centre. */
  function BaseScreen(finalPoint: Option<Point>, size: nat, axis: Axis): (s: real)
    ensures finalPoint.None? ==> s == (size as real) / 2.0
    ensures finalPoint.Some? && 0.0 <= Coord(finalPoint.value, axis) <= 1.0 ==> 0.0 <= s <= size as real
    ensures finalPoint.Some? && Coord(finalPoint.value, axis) == 0.0 ==> s == 0.0
    ensures finalPoint.Some? && Coord(finalPoint.value, axis) == 1.0 ==> s == size as real
    ensures finalPoint.Some? && size > 0 ==> s / (size as real) == Coord(finalPoint.value, axis)
  {
    if finalPoint.Some? then
      var c, n := Coord(finalPoint.value, axis), size as real;
      Scale(c, n);
      c * n
    else (size as real) / 2.0
  }

  /** A fraction of a non-negative size: within the size for a fraction within [0, 1], and
      the fraction recovered by dividing back. */
  lemma Scale(c: real, n: real)
    requires n >= 0.0
    ensures 0.0 <= c <= 1.0 ==> 0.0 <= c * n <= n
    ensures n > 0.0 ==> (c * n) / n == c
  {
    if 0.0 <= c <= 1.0 {
      assert n - c * n == (1.0 - c) * n;
    }
  }

  /** Eyelid extents of both eyes together, chosen like the combined centre: one-eye mode
      prefers the right eye, two-eye mode averages both lids; `trackEyes` computes this
      and then discards it. */
  function CombinedEyelids(left: Option<EyelidLandmarks>, right: Option<EyelidLandmarks>,
                           useOneEye: bool): (c: Option<EyelidLandmarks>)
    ensures c.None? <==> left.None? && right.None?
    ensures useOneEye && right.Some? ==> c == right
    ensures useOneEye && right.None? ==> c == left
    ensures !useOneEye && left.Some? && right.Some? ==>
              && c.value.upperLidY == (left.value.upperLidY + right.value.upperLidY) / 2.0
              && c.value.lowerLidY == (left.value.lowerLidY + right.value.lowerLidY) / 2.0
    ensures left.Some? != right.Some? ==> c == left.OrElse(right)
    ensures (left.Some? ==> left.value.upperLidY <= left.value.lowerLidY)
            && (right.Some? ==> right.value.upperLidY <= right.value.lowerLidY)
            ==> (c.Some? ==> c.value.upperLidY <= c.value.lowerLidY)
  {
    if useOneEye then right.OrElse(left)
    else if left.Some? && right.Some? then
      Some(EyelidLandmarks((left.value.upperLidY + right.value.upperLidY) / 2.0,
                           (left.value.lowerLidY + right.value.lowerLidY) / 2.0))
    else left.OrElse(right)
  }

  /** `trackEyes`: the whole per-frame geometry. */
  function TrackEyes(landmarks: seq<Point>, useOneEye: bool, display: Display): (r: TrackingResult)
    ensures 0.0 <= r.eyeArea <= 1.0
    ensures r.leftEyeRegion.None? && r.rightEyeRegion.None? ==> r.eyeArea == 0.0
    ensures r.combinedCenter.None? ==> r.screenX == (display.widthPixels as real) / 2.0
                                       && r.screenY == (display.heightPixels as real) / 2.0
    ensures r.leftEyeRegion.Some? <==> r.leftEyelidLandmarks.Some?
    ensures r.rightEyeRegion.Some? <==> r.rightEyelidLandmarks.Some?
  {
    var leftRegion := CalculateEyeRegion(landmarks, LeftEyeLineIndices);
    var rightRegion := CalculateEyeRegion(landmarks, RightEyeLineIndices);
    var leftLids := ExtractEyelidLandmarks(landmarks, LeftEyeLineIndices);
    var rightLids := ExtractEyelidLandmarks(landmarks, RightEyeLineIndices);
    var leftPupil := GetPupilPosition(landmarks, LeftEyePupilCenter, LeftEyeLineIndices);
    var rightPupil := GetPupilPosition(landmarks, RightEyePupilCenter, RightEyeLineIndices);
    var combined := CombinedCenter(leftRegion, rightRegion, useOneEye);
    var finalPoint := FinalPoint(leftPupil, rightPupil, combined, useOneEye);
    var distance := DistanceProxy(EyeArea(leftRegion, rightRegion));
    TrackingResult(
      leftRegion, rightRegion, finalPoint,
      BaseScreen(finalPoint, display.widthPixels, X),
      BaseScreen(finalPoint, display.heightPixels, Y),
      distance,
      EyePosition(leftRegion, rightRegion, leftPupil, rightPupil, finalPoint, X),
      EyePosition(leftRegion, rightRegion, leftPupil, rightPupil, finalPoint, Y),
      leftLids, rightLids)
  }

  /** How `trackEyes` assembles its result from the per-eye geometry: the gaze point from
      the pupils and the combined centre, the base screen coordinates from the gaze point,
      the distance proxy from the regions' mean area, and the position-effect inputs from
      the fallback chain. */
  lemma TrackEyesComposition(landmarks: seq<Point>, useOneEye: bool, display: Display)
    ensures var r := TrackEyes(landmarks, useOneEye, display);
            var leftPupil := GetPupilPosition(landmarks, LeftEyePupilCenter, LeftEyeLineIndices);
            var rightPupil := GetPupilPosition(landmarks, RightEyePupilCenter, RightEyeLineIndices);
            && r.leftEyeRegion == CalculateEyeRegion(landmarks, LeftEyeLineIndices)
            && r.rightEyeRegion == CalculateEyeRegion(landmarks, RightEyeLineIndices)
            && r.leftEyelidLandmarks == ExtractEyelidLandmarks(landmarks, LeftEyeLineIndices)
            && r.rightEyelidLandmarks == ExtractEyelidLandmarks(landmarks, RightEyeLineIndices)
            && r.combinedCenter == FinalPoint(leftPupil, rightPupil,
                                              CombinedCenter(r.leftEyeRegion, r.rightEyeRegion, useOneEye),
                                              useOneEye)
            && r.screenX == BaseScreen(r.combinedCenter, display.widthPixels, X)
            && r.screenY == BaseScreen(r.combinedCenter, display.heightPixels, Y)
            && r.eyeArea == DistanceProxy(EyeArea(r.leftEyeRegion, r.rightEyeRegion))
            && r.eyePositionX == EyePosition(r.leftEyeRegion, r.rightEyeRegion, leftPupil, rightPupil,
                                             r.combinedCenter, X)
            && r.eyePositionY == EyePosition(r.leftEyeRegion, r.rightEyeRegion, leftPupil, rightPupil,
                                             r.combinedCenter, Y)
  {
  }

  /** The distance proxy does not depend on the one-eye setting. */
  lemma DistanceIgnoresOneEye(landmarks: seq<Point>, display: Display)
    ensures TrackEyes(landmarks, true, display).eyeArea == TrackEyes(landmarks, false, display).eyeArea
  {
  }

  /** Neither do the position-effect inputs, although their last fallback reads the gaze point:
      that fallback is reached only when no pupil and no region exists, so the gaze point is absent. */
  lemma PositionEffectIgnoresOneEye(landmarks: seq<Point>, display: Display)
    ensures TrackEyes(landmarks, true, display).eyePositionX == TrackEyes(landmarks, false, display).eyePositionX
    ensures TrackEyes(landmarks, true, display).eyePositionY == TrackEyes(landmarks, false, display).eyePositionY
  {
    var leftRegion := CalculateEyeRegion(landmarks, LeftEyeLineIndices);
    var rightRegion := CalculateEyeRegion(landmarks, RightEyeLineIndices);
    var leftPupil := GetPupilPosition(landmarks, LeftEyePupilCenter, LeftEyeLineIndices);
    var rightPupil := GetPupilPosition(landmarks, RightEyePupilCenter, RightEyeLineIndices);
    var f1 := FinalPoint(leftPupil, rightPupil, CombinedCenter(leftRegion, rightRegion, true), true);
    var f2 := FinalPoint(leftPupil, rightPupil, CombinedCenter(leftRegion, rightRegion, false), false);
    assert leftPupil.None? && rightPupil.None? ==> f1 == f2;
    EyePositionIgnoresGaze(leftRegion, rightRegion, leftPupil, rightPupil, f1, f2, X);
    EyePositionIgnoresGaze(leftRegion, rightRegion, leftPupil, rightPupil, f1, f2, Y);
  }

  /** The gaze point is the last fallback of a position-effect input: two gaze points give
      the same input unless no pupil and no region exists. */
  lemma EyePositionIgnoresGaze(left: Option<EyeRegion>, right: Option<EyeRegion>,
                               leftPupil: Option<Point>, rightPupil: Option<Point>,
                               f1: Option<Point>, f2: Option<Point>, axis: Axis)
    requires left.Some? || right.Some? || leftPupil.Some? || rightPupil.Some? || f1 == f2
    ensures EyePosition(left, right, leftPupil, rightPupil, f1, axis)
         == EyePosition(left, right, leftPupil, rightPupil, f2, axis)
  {
  }

  /** A gaze point exists exactly when some pupil estimate exists: the region-centre
      fallback of the gaze chain can never be the one that supplies it. */
  lemma GazePointNeedsAPupil(landmarks: seq<Point>, useOneEye: bool, display: Display)
    ensures var r := TrackEyes(landmarks, useOneEye, display);
      r.combinedCenter.Some? <==>
        (GetPupilPosition(landmarks, LeftEyePupilCenter, LeftEyeLineIndices).Some?
         || GetPupilPosition(landmarks, RightEyePupilCenter, RightEyeLineIndices).Some?)
  {
    var leftPupil := GetPupilPosition(landmarks, LeftEyePupilCenter, LeftEyeLineIndices);
    var rightPupil := GetPupilPosition(landmarks, RightEyePupilCenter, RightEyeLineIndices);
    if leftPupil.None? && rightPupil.None? {
      MissingPupilMeansMissingRegion(landmarks, LeftEyePupilCenter, LeftEyeLineIndices);
      MissingPupilMeansMissingRegion(landmarks, RightEyePupilCenter, RightEyeLineIndices);
    }
  }

  /** Two eyes, two pupils: pupils (0.3,0.4) and (0.5,0.4), region centres (0.32,0.4) and
      (0.48,0.4) give the gaze point (0.4,0.4). */
  lemma TwoEyeGazeExample()
    ensures var left := Some(EyeRegion(Point(0.32, 0.4), 0.3, 0.39, 0.34, 0.41, 0.04, 0.02));
            var right := Some(EyeRegion(Point(0.48, 0.4), 0.46, 0.39, 0.5, 0.41, 0.04, 0.02));
            FinalPoint(Some(Point(0.3, 0.4)), Some(Point(0.5, 0.4)),
                       CombinedCenter(left, right, false), false) == Some(Point(0.4, 0.4))
  {
  }
}

=== FILE: mouse_control_service.dfy ===
/**
 Cursor dispatch: the accessibility service that turns cursor requests into
 dispatched gestures. The cursor state (last position, last update time, drag
 state and drag origin) is an immutable value; each operation returns the next
 state and, where the service would call `dispatchGesture`, the stroke it
 dispatches. Whether the accessibility service is enabled and the current time
 are inputs.
 */
module MouseControlService {
  import opened Common

  /** The cursor settings the service reads: the smoothing factor and the throttle
      interval in milliseconds. */
  datatype CursorConfig = CursorConfig(smoothing: real, updateIntervalMs: int)

  /** The ranges the settings screen clamps both values into. */
  predicate ValidConfig(c: CursorConfig) {
    0.0 <= c.smoothing <= 1.0 && 8 <= c.updateIntervalMs <= 100
  }

  const DefaultSmoothing: real := 0.7
  const DefaultUpdateIntervalMs: int := 16

  /** The settings in force: the attached configuration, or 0.7 and 16 ms without one. */
  function EffectiveConfig(config: Option<CursorConfig>): (c: CursorConfig)
    ensures config.None? ==> c == CursorConfig(DefaultSmoothing, DefaultUpdateIntervalMs)
    ensures config.Some? ==> c == config.value
    ensures (config.Some? ==> ValidConfig(config.value)) ==> ValidConfig(c)
  {
    config.GetOr(CursorConfig(DefaultSmoothing, DefaultUpdateIntervalMs))
  }

  /** The per-instance cursor and drag state. */
  datatype Cursor = Cursor(lastX: real, lastY: real, lastUpdateTime: int, isDragging: bool,
                           dragStartX: real, dragStartY: real)

  /** A freshly created service. */
  const Fresh := Cursor(0.0, 0.0, 0, false, 0.0, 0.0)

  /** A dispatched gesture with a single stroke: its path and its duration in ms. */
  datatype Stroke = Stroke(path: seq<Point>, durationMs: int)

  const DragStrokeMs: int := 16
  const MoveStrokeMs: int := 1
  const ClickStrokeMs: int := 50
  /** The per-axis dead zone, in pixels. */
  const DeadZonePx: real := 1.0

  /** A cursor has a previous position only when both coordinates are positive. */
  predicate HasPrevious(c: Cursor) {
    c.lastX > 0.0 && c.lastY > 0.0
  }

  /** Exponential smoothing towards `target`: the smoothing factor is the share of the
      remaining distance that is kept. */
  function Smooth(last: real, target: real, smoothing: real): (r: real)
    ensures 0.0 <= smoothing <= 1.0 ==> (last <= r <= target || target <= r <= last)
    ensures target - r == smoothing * (target - last)
  {
    var d, f := target - last, 1.0 - smoothing;
    ScaleBetween(d, f);
    last + d * f
  }

  lemma ScaleBetween(d: real, f: real)
    ensures 0.0 <= f <= 1.0 && d >= 0.0 ==> 0.0 <= d * f <= d
    ensures 0.0 <= f <= 1.0 && d <= 0.0 ==> d <= d * f <= 0.0
  {
    if 0.0 <= f <= 1.0 {
      if d >= 0.0 {
        assert d * f <= d * 1.0;
      } else {
        assert d * f >= d * 1.0;
      }
    }
  }

  /** The throttle: a move that is not forced is dropped while less than the update
      interval has passed since the last update, unless no update happened yet. */
  predicate Throttled(c: Cursor, force: bool, now: int, intervalMs: int) {
    !force && c.lastUpdateTime > 0 && now - c.lastUpdateTime < intervalMs
  }

  /** Where a move to (x, y) puts the cursor: exactly there when forced or without a
      previous position, otherwise smoothed from the previous position. */
  function Target(c: Cursor, x: real, y: real, force: bool, smoothing: real): (p: Point)
    ensures force || !HasPrevious(c) ==> p == Point(x, y)
    ensures !force && HasPrevious(c) && 0.0 <= smoothing <= 1.0 ==>
              && (c.lastX <= p.x <= x || x <= p.x <= c.lastX)
              && (c.lastY <= p.y <= y || y <= p.y <= c.lastY)
  {
    if force || !HasPrevious(c) then Point(x, y)
    else Point(Smooth(c.lastX, x, smoothing), Smooth(c.lastY, y, smoothing))
  }

  /** The dead zone: the target is less than one pixel away on both axes. */
  predicate InDeadZone(c: Cursor, p: Point) {
    Abs(p.x - c.lastX) < DeadZonePx && Abs(p.y - c.lastY) < DeadZonePx
  }

  /** The stroke a move dispatches: from the drag origin to the target while dragging,
      a single point at the target otherwise. */
  function StrokeTo(c: Cursor, p: Point): (s: Stroke)
    ensures c.isDragging ==> s.path == [Point(c.dragStartX, c.dragStartY), p] && s.durationMs == DragStrokeMs
    ensures !c.isDragging ==> s.path == [p] && s.durationMs == MoveStrokeMs
    ensures s.path[|s.path| - 1] == p
  {
    if c.isDragging then Stroke([Point(c.dragStartX, c.dragStartY), p], DragStrokeMs)
    else Stroke([p], MoveStrokeMs)
  }

  /** `performMouseMoveInternal`. Nothing happens while the service is disabled or the
      move is throttled. Otherwise the update time becomes `now` and, unless the move is
      not forced and stays inside the dead zone, the cursor moves to the target and the
      stroke to it is dispatched. The drag state is never touched. */
  function MoveInternal(c: Cursor, x: real, y: real, force: bool, enabled: bool, now: int, cfg: CursorConfig)
    : (r: (Cursor, Option<Stroke>))
    ensures !enabled || Throttled(c, force, now, cfg.updateIntervalMs) ==> r == (c, None)
    ensures enabled && !Throttled(c, force, now, cfg.updateIntervalMs) ==> r.0.lastUpdateTime == now
    ensures r.0.isDragging == c.isDragging && r.0.dragStartX == c.dragStartX && r.0.dragStartY == c.dragStartY
    ensures r.1.Some? <==>
              && enabled && !Throttled(c, force, now, cfg.updateIntervalMs)
              && (force || !InDeadZone(c, Target(c, x, y, force, cfg.smoothing)))
    ensures r.1.Some? ==>
              && Point(r.0.lastX, r.0.lastY) == Target(c, x, y, force, cfg.smoothing)
              && r.1.value == StrokeTo(c, Target(c, x, y, force, cfg.smoothing))
    ensures r.1.None? ==> r.0.lastX == c.lastX && r.0.lastY == c.lastY
    ensures enabled && force ==> r.0.lastX == x && r.0.lastY == y && r.1.Some?
  {
    if !enabled || Throttled(c, force, now, cfg.updateIntervalMs) then (c, None)
    else
      var updated := c.(lastUpdateTime := now);
      var p := Target(c, x, y, force, cfg.smoothing);
      if !force && InDeadZone(c, p) then (updated, None)
      else (updated.(lastX := p.x, lastY := p.y), Some(StrokeTo(c, p)))
  }

  /** `performMouseMove`: a request with a negative coordinate is ignored; any other is
      an ordinary, unforced move. */
  function PerformMouseMove(c: Cursor, x: real, y: real, enabled: bool, now: int, cfg: CursorConfig)
    : (r: (Cursor, Option<Stroke>))
    ensures x < 0.0 || y < 0.0 ==> r == (c, None)
    ensures x >= 0.0 && y >= 0.0 ==> r == MoveInternal(c, x, y, false, enabled, now, cfg)
  {
    if x < 0.0 || y < 0.0 then (c, None) else MoveInternal(c, x, y, false, enabled, now, cfg)
  }

  /** `performMouseClickInternal`: a press of 50 ms at the cursor, only while the service
      is enabled and the cursor has a previous position. The cursor state is untouched. */
  function Click(c: Cursor, enabled: bool): (r: Option<Stroke>)
    ensures r.Some? <==> enabled && HasPrevious(c)
    ensures r.Some? ==> r.value.path == [Point(c.lastX, c.lastY), Point(c.lastX, c.lastY)]
                        && r.value.durationMs == ClickStrokeMs
  {
    if !enabled || !HasPrevious(c) then None
    else Some(Stroke([Point(c.lastX, c.lastY), Point(c.lastX, c.lastY)], ClickStrokeMs))
  }

  /** `startDragInternal`: under the same guard as a click, enter drag mode with the
      cursor as the drag origin. */
  function StartDrag(c: Cursor, enabled: bool): (r: Cursor)
    ensures !enabled || !HasPrevious(c) ==> r == c
    ensures enabled && HasPrevious(c) ==>
              r == c.(isDragging := true, dragStartX := c.lastX, dragStartY := c.lastY)
  {
    if !enabled || !HasPrevious(c) then c
    else c.(isDragging := true, dragStartX := c.lastX, dragStartY := c.lastY)
  }

  /** `endDragInternal`: leave drag mode, unconditionally. */
  function EndDrag(c: Cursor): (r: Cursor)
    ensures !r.isDragging
    ensures r.(isDragging := c.isDragging) == c
  {
    c.(isDragging := false)
  }

  // ---------------------------------------------------------------------------
  // Single-cursor properties

  /** A move with a negative coordinate changes nothing and dispatches nothing. */
  lemma NegativeMoveIgnored(c: Cursor, x: real, y: real, enabled: bool, now: int, cfg: CursorConfig)
    requires x < 0.0 || y < 0.0
    ensures PerformMouseMove(c, x, y, enabled, now, cfg) == (c, None)
  {
  }

  /** Smoothing moves the cursor a fixed share of the way: after an unforced move from a
      previous position that leaves the dead zone, the remaining distance to the
      requested point is the smoothing factor times the distance before. */
  lemma SmoothingShrinksDistance(c: Cursor, x: real, y: real, enabled: bool, now: int, cfg: CursorConfig)
    requires HasPrevious(c)
    ensures var r := MoveInternal(c, x, y, false, enabled, now, cfg);
      r.1.Some? ==>
        && x - r.0.lastX == cfg.smoothing * (x - c.lastX)
        && y - r.0.lastY == cfg.smoothing * (y - c.lastY)
  {
  }

  /** A move suppressed by the dead zone still counts as an update: for the rest of the
      interval every unforced move is throttled. */
  lemma DeadZoneRestartsThrottle(c: Cursor, x: real, y: real, enabled: bool, now: int,
                                 cfg: CursorConfig, x2: real, y2: real, later: int)
    requires now > 0 && now <= later < now + cfg.updateIntervalMs
    requires var r := MoveInternal(c, x, y, false, enabled, now, cfg);
             enabled && !Throttled(c, false, now, cfg.updateIntervalMs) && r.1.None?
    ensures var r := MoveInternal(c, x, y, false, enabled, now, cfg);
            && r.0 == c.(lastUpdateTime := now)
            && MoveInternal(r.0, x2, y2, false, enabled, later, cfg) == (r.0, None)
  {
    var r := MoveInternal(c, x, y, false, enabled, now, cfg);
    assert r.0.lastUpdateTime == now && r.0.lastX == c.lastX && r.0.lastY == c.lastY;
    assert r.0 == c.(lastUpdateTime := now);
    assert Throttled(r.0, false, later, cfg.updateIntervalMs);
  }

  /** A click after a dispatched forced move to a positive point presses exactly there. */
  lemma ClickAfterForcedMove(c: Cursor, x: real, y: real, now: int, cfg: CursorConfig)
    requires x > 0.0 && y > 0.0
    ensures var r := MoveInternal(c, x, y, true, true, now, cfg);
            Click(r.0, true) == Some(Stroke([Point(x, y), Point(x, y)], ClickStrokeMs))
  {
  }

  /** While dragging, every dispatched move draws from the origin recorded by the drag
      start; after the drag ends, moves dispatch single points again. */
  lemma DragStrokesStartAtOrigin(c: Cursor, x: real, y: real, force: bool, now: int, cfg: CursorConfig)
    requires HasPrevious(c)
    ensures var d := StartDrag(c, true);
            var r := MoveInternal(d, x, y, force, true, now, cfg);
            r.1.Some? ==> r.1.value.path[0] == Point(c.lastX, c.lastY) && |r.1.value.path| == 2
    ensures var e := EndDrag(c);
            var r := MoveInternal(e, x, y, force, true, now, cfg);
            r.1.Some? ==> |r.1.value.path| == 1 && r.1.value.durationMs == MoveStrokeMs
  {
  }

  /** What every reachable cursor satisfies: no negative coordinate, and a drag origin
      that passed the click guard. */
  predicate CursorOk(c: Cursor) {
    c.lastX >= 0.0 && c.lastY >= 0.0 && (c.isDragging ==> c.dragStartX > 0.0 && c.dragStartY > 0.0)
  }

  /** A stroke the platform accepts: no point with a negative coordinate. */
  predicate StrokeOk(s: Stroke) {
    forall i :: 0 <= i < |s.path| ==> s.path[i].x >= 0.0 && s.path[i].y >= 0.0
  }

  /** A move to a non-negative point keeps the cursor invariant and dispatches only
      strokes with non-negative points, forced or not. */
  lemma MoveKeepsCursorOk(c: Cursor, x: real, y: real, force: bool, enabled: bool, now: int, cfg: CursorConfig)
    requires CursorOk(c) && ValidConfig(cfg) && x >= 0.0 && y >= 0.0
    ensures var r := MoveInternal(c, x, y, force, enabled, now, cfg);
            CursorOk(r.0) && (r.1.Some? ==> StrokeOk(r.1.value))
  {
    var r := MoveInternal(c, x, y, force, enabled, now, cfg);
    var p := Target(c, x, y, force, cfg.smoothing);
    assert p.x >= 0.0 && p.y >= 0.0;
    if r.1.Some? {
      assert r.1.value == StrokeTo(c, p);
    }
  }

  // ---------------------------------------------------------------------------
  // The service: the pending-position slot, connection and replay

  /** The pending position is process-wide; the rest belongs to the service instance,
      which exists from the moment the system connects it until it is destroyed. */
  datatype Service = Service(pending: Option<Point>, connected: bool, config: Option<CursorConfig>,
                             cursor: Cursor)

  const Startup := Service(None, false, None, Fresh)

  function Settings(s: Service): CursorConfig {
    EffectiveConfig(s.config)
  }

  /** The state reset `onServiceConnected` performs: position, update time and drag mode,
      but not the drag origin. */
  function ResetOnConnect(c: Cursor): (r: Cursor)
    ensures r.lastX == 0.0 && r.lastY == 0.0 && r.lastUpdateTime == 0 && !r.isDragging
    ensures r.dragStartX == c.dragStartX && r.dragStartY == c.dragStartY
  {
    c.(lastX := 0.0, lastY := 0.0, lastUpdateTime := 0, isDragging := false)
  }

  /** `onServiceConnected` as written: reset, then replay the pending position as a forced
      move, which skips the negative-coordinate check of `performMouseMove`. */
  function ConnectAsWritten(s: Service, enabled: bool, now: int): (r: (Service, Option<Stroke>))
    ensures r.0.connected && r.0.pending == s.pending && r.0.config == s.config
    ensures s.pending.None? || !enabled ==> r == (s.(connected := true, cursor := ResetOnConnect(s.cursor)), None)
    ensures s.pending.Some? && enabled ==>
              && r.1 == Some(Stroke([s.pending.value], MoveStrokeMs))
              && r.0.cursor.lastX == s.pending.value.x && r.0.cursor.lastY == s.pending.value.y
  {
    var c := ResetOnConnect(s.cursor);
    var s1 := s.(connected := true, cursor := c);
    match s.pending
    case None => (s1, None)
    case Some(p) =>
      var (moved, stroke) := MoveInternal(c, p.x, p.y, true, enabled, now, Settings(s));
      (s1.(cursor := moved), stroke)
  }

  /** `onServiceConnected` with the replay subject to the same check as every other
      request: a pending position with a negative coordinate is not replayed. */
  function Connect(s: Service, enabled: bool, now: int): (r: (Service, Option<Stroke>))
    ensures r.0.connected && r.0.pending == s.pending && r.0.config == s.config
    ensures s.pending.Some? && (s.pending.value.x < 0.0 || s.pending.value.y < 0.0) ==>
              r == (s.(connected := true, cursor := ResetOnConnect(s.cursor)), None)
  {
    match s.pending
    case Some(p) =>
      if p.x < 0.0 || p.y < 0.0 then (s.(connected := true, cursor := ResetOnConnect(s.cursor)), None)
      else ConnectAsWritten(s, enabled, now)
    case None => ConnectAsWritten(s, enabled, now)
  }

  /** The two connects differ only on a negative pending position. */
  lemma ConnectAgreesOffNegative(s: Service, enabled: bool, now: int)
    ensures Connect(s, enabled, now) == ConnectAsWritten(s, enabled, now) <==>
              || s.pending.None? || (s.pending.value.x >= 0.0 && s.pending.value.y >= 0.0)
              || !enabled
  {
  }

  /** The requests the service reacts to. The companion object forwards moves, clicks
      and drag requests to the connected instance, if there is one. */
  datatype Command =
    | MoveCursor(x: real, y: real)
    | PerformClick
    | BeginDrag
    | FinishDrag
    | ServiceConnected
    | ServiceDestroyed
    | SetConfig(config: CursorConfig)

  /** A request, whether the accessibility service is enabled at that moment, and the
      time it is handled. */
  datatype Event = Event(command: Command, enabled: bool, now: int)

  /** One request. `moveCursor` records the pending position first, even when no
      instance is connected. Every other request reaches only a connected instance;
      destroying the instance discards its configuration and cursor state, so the next
      connection starts from the defaults. The connection replays through `Connect`. */
  function Step(s: Service, e: Event): (r: (Service, Option<Stroke>))
    ensures e.command.MoveCursor? ==> r.0.pending == Some(Point(e.command.x, e.command.y))
    ensures !e.command.MoveCursor? ==> r.0.pending == s.pending
    ensures !s.connected && !e.command.ServiceConnected? ==> r.1.None?
    ensures !s.connected && !e.command.ServiceConnected? && !e.command.ServiceDestroyed? ==>
              r.0 == s.(pending := r.0.pending)
    ensures e.command.ServiceDestroyed? ==> r == (Startup.(pending := s.pending), None)
    ensures s.connected && e.command.SetConfig? ==> r == (s.(config := Some(e.command.config)), None)
  {
    match e.command
    case MoveCursor(x, y) =>
      var s1 := s.(pending := Some(Point(x, y)));
      if !s.connected then (s1, None)
      else
        var (c, stroke) := PerformMouseMove(s.cursor, x, y, e.enabled, e.now, Settings(s));
        (s1.(cursor := c), stroke)
    case PerformClick =>
      if !s.connected then (s, None) else (s, Click(s.cursor, e.enabled))
    case BeginDrag =>
      if !s.connected then (s, None) else (s.(cursor := StartDrag(s.cursor, e.enabled)), None)
    case FinishDrag =>
      if !s.connected then (s, None) else (s.(cursor := EndDrag(s.cursor)), None)
    case ServiceConnected => Connect(s, e.enabled, e.now)
    case ServiceDestroyed => (Service(s.pending, false, None, Fresh), None)
    case SetConfig(config) => if !s.connected then (s, None) else (s.(config := Some(config)), None)
  }

  /** `Step` with the replay as written. It departs from `Step` on exactly one kind of
      request: a connection, while the service is enabled, with a pending position that
      has a negative coordinate. */
  function StepAsWritten(s: Service, e: Event): (r: (Service, Option<Stroke>))
    ensures r == Step(s, e) <==>
              !(&& e.command.ServiceConnected? && e.enabled && s.pending.Some?
                && (s.pending.value.x < 0.0 || s.pending.value.y < 0.0))
  {
    ConnectAgreesOffNegative(s, e.enabled, e.now);
    if e.command.ServiceConnected? then ConnectAsWritten(s, e.enabled, e.now) else Step(s, e)
  }

  /** A move request reaching a connected instance: it is dispatched exactly when the
      service is enabled, both coordinates are non-negative, the throttle lets it through
      and the smoothed target leaves the dead zone; the cursor then moves to that target
      and the stroke to it is dispatched. */
  lemma ConnectedMoveDispatches(s: Service, e: Event)
    requires s.connected && e.command.MoveCursor?
    ensures var c, cfg := s.cursor, Settings(s);
            var p := Target(c, e.command.x, e.command.y, false, cfg.smoothing);
            var r := Step(s, e);
            && (r.1.Some? <==>
                  && e.enabled && e.command.x >= 0.0 && e.command.y >= 0.0
                  && !Throttled(c, false, e.now, cfg.updateIntervalMs) && !InDeadZone(c, p))
            && (r.1.Some? ==>
                  && r.1.value == StrokeTo(c, p)
                  && r.0.cursor.lastX == p.x && r.0.cursor.lastY == p.y
                  && r.0.cursor.lastUpdateTime == e.now)
  {
  }

  /** A click request reaching a connected instance presses for 50 ms at the cursor when
      the service is enabled and the cursor has a previous position, and changes nothing. */
  lemma ConnectedClickPresses(s: Service, e: Event)
    requires s.connected && e.command.PerformClick?
    ensures var r := Step(s, e);
            && r.0 == s
            && (r.1.Some? <==> e.enabled && HasPrevious(s.cursor))
            && (r.1.Some? ==> r.1.value == Stroke([Point(s.cursor.lastX, s.cursor.lastY),
                                                   Point(s.cursor.lastX, s.cursor.lastY)], ClickStrokeMs))
  {
  }

  /** Drag requests reaching a connected instance: a start under the click guard makes
      the cursor the drag origin; an end always leaves drag mode. Neither dispatches. */
  lemma ConnectedDragRequests(s: Service, e: Event)
    requires s.connected && (e.command.BeginDrag? || e.command.FinishDrag?)
    ensures Step(s, e).1.None?
    ensures e.command.BeginDrag? && e.enabled && HasPrevious(s.cursor) ==>
              var c := Step(s, e).0.cursor;
              c.isDragging && c.dragStartX == s.cursor.lastX && c.dragStartY == s.cursor.lastY
    ensures e.command.FinishDrag? ==> !Step(s, e).0.cursor.isDragging
  {
  }

  /** A connection resets the cursor and replays the pending position: a stroke to it
      exactly when the service is enabled and the position is non-negative, leaving the
      cursor there with update time `now`; otherwise nothing is dispatched and the
      cursor stays reset. */
  lemma ConnectionReplaysPending(s: Service, e: Event)
    requires e.command.ServiceConnected?
    ensures var r := Step(s, e);
            && r.0.connected && r.0.pending == s.pending && r.0.config == s.config
            && (r.1.Some? <==>
                  e.enabled && s.pending.Some? && s.pending.value.x >= 0.0 && s.pending.value.y >= 0.0)
            && (r.1.Some? ==>
                  && r.1.value == Stroke([s.pending.value], MoveStrokeMs)
                  && r.0.cursor == ResetOnConnect(s.cursor).(lastX := s.pending.value.x,
                                                             lastY := s.pending.value.y,
                                                             lastUpdateTime := e.now))
            && (r.1.None? ==> r.0 == s.(connected := true, cursor := ResetOnConnect(s.cursor)))
  {
  }

  /** Handles the events in order, collecting the dispatched strokes. */
  function Run(s: Service, events: seq<Event>): (r: (Service, seq<Stroke>))
    ensures |r.1| <= |events|
    decreases |events|
  {
    if |events| == 0 then (s, [])
    else
      var (next, stroke) := Step(s, events[0]);
      var (final, rest) := Run(next, events[1..]);
      (final, (if stroke.Some? then [stroke.value] else []) + rest)
  }

  /** The pending slot after the requests, computed independently of the service: the
      point of the last `moveCursor`, or what was there before. */
  function LastRequest(events: seq<Event>, before: Option<Point>): Option<Point>
    decreases |events|
  {
    if |events| == 0 then before
    else LastRequest(events[1..],
                     if events[0].command.MoveCursor? then Some(Point(events[0].command.x, events[0].command.y))
                     else before)
  }

  /** Last writer wins: whatever else happens, and whether or not an instance is
      connected, the pending slot holds the last requested position. */
  lemma {:induction false} PendingIsLastRequest(s: Service, events: seq<Event>)
    ensures Run(s, events).0.pending == LastRequest(events, s.pending)
    decreases |events|
  {
    if |events| > 0 {
      var next := Step(s, events[0]).0;
      PendingIsLastRequest(next, events[1..]);
    }
  }

  predicate ServiceOk(s: Service) {
    CursorOk(s.cursor) && (s.config.Some? ==> ValidConfig(s.config.value))
  }

  predicate ConfigsValid(events: seq<Event>) {
    forall i :: 0 <= i < |events| && events[i].command.SetConfig? ==> ValidConfig(events[i].command.config)
  }

  /** One request keeps the service invariant and dispatches only acceptable strokes. */
  lemma StepKeepsServiceOk(s: Service, e: Event)
    requires ServiceOk(s) && (e.command.SetConfig? ==> ValidConfig(e.command.config))
    ensures var r := Step(s, e);
            ServiceOk(r.0) && (r.1.Some? ==> StrokeOk(r.1.value))
  {
    match e.command
    case MoveCursor(x, y) =>
      if s.connected && x >= 0.0 && y >= 0.0 {
        MoveKeepsCursorOk(s.cursor, x, y, false, e.enabled, e.now, Settings(s));
      }
    case ServiceConnected =>
      var c := ResetOnConnect(s.cursor);
      if s.pending.Some? && s.pending.value.x >= 0.0 && s.pending.value.y >= 0.0 {
        MoveKeepsCursorOk(c, s.pending.value.x, s.pending.value.y, true, e.enabled, e.now, Settings(s));
      }
    case PerformClick =>
    case BeginDrag =>
    case FinishDrag =>
    case ServiceDestroyed =>
    case SetConfig(_) =>
  }

  /** Over any run from a well-formed service, with settings in their ranges, every
      dispatched stroke has non-negative points. */
  lemma {:induction false} RunDispatchesOnlyOnScreen(s: Service, events: seq<Event>)
    requires ServiceOk(s) && ConfigsValid(events)
    ensures ServiceOk(Run(s, events).0)
    ensures forall i :: 0 <= i < |Run(s, events).1| ==> StrokeOk(Run(s, events).1[i])
    decreases |events|
  {
    if |events| > 0 {
      var (next, stroke) := Step(s, events[0]);
      StepKeepsServiceOk(s, events[0]);
      assert ConfigsValid(events[1..]) by {
        forall i | 0 <= i < |events[1..]| && events[1..][i].command.SetConfig?
          ensures ValidConfig(events[1..][i].command.config)
        {
          assert events[1..][i] == events[i + 1];
        }
      }
      RunDispatchesOnlyOnScreen(next, events[1..]);
      var rest := Run(next, events[1..]).1;
      var head := if stroke.Some? then [stroke.value] else [];
      assert Run(s, events).1 == head + rest;
      forall i | 0 <= i < |head + rest| ensures StrokeOk((head + rest)[i]) {
        if i >= |head| {
          assert (head + rest)[i] == rest[i - |head|];
        }
      }
    }
  }

  /** A configuration belongs to the instance: once it is destroyed, the next connection
      moves with the default smoothing and interval, and a configuration sent while no
      instance is connected is lost. */
  lemma {:induction false} ReconnectUsesDefaults(s: Service, config: CursorConfig, events: seq<Event>)
    requires |events| == 3
    requires events[0].command == ServiceDestroyed && events[1].command == SetConfig(config)
    requires events[2].command == ServiceConnected
    ensures Settings(Run(s, events).0) == CursorConfig(DefaultSmoothing, DefaultUpdateIntervalMs)
    ensures Run(s, events).0.cursor.dragStartX == 0.0 && Run(s, events).0.cursor.dragStartY == 0.0
  {
    var s1 := Step(s, events[0]).0;
    var s2 := Step(s1, events[1]).0;
    assert s2.config.None? && s2.cursor == Fresh;
    var s3 := Step(s2, events[2]).0;
    assert s3.config.None? && s3.cursor.dragStartX == 0.0 && s3.cursor.dragStartY == 0.0;
    var tail := events[1..];
    assert tail[0] == events[1] && tail[1..][0] == events[2] && tail[1..][1..] == [];
    assert Run(s2, tail[1..]).0 == s3;
    assert Run(s1, tail).0 == s3;
  }

  /** The service as written dispatches a stroke at a negative point: a request for
      (-1, -1) made before the service connects is rejected by nothing and replayed on
      connection. */
  /** The strokes of a run are the steps' strokes in order: a connection with nothing
      pending dispatches nothing, the first move goes straight to its point, and a click
      then presses there. */
  lemma ConnectMoveClickScenario()
    ensures Run(Startup, [Event(ServiceConnected, true, 1000), Event(MoveCursor(100.0, 200.0), true, 1100),
                          Event(PerformClick, true, 1200)]).1
            == [Stroke([Point(100.0, 200.0)], MoveStrokeMs),
                Stroke([Point(100.0, 200.0), Point(100.0, 200.0)], ClickStrokeMs)]
  {
    var events := [Event(ServiceConnected, true, 1000), Event(MoveCursor(100.0, 200.0), true, 1100),
                   Event(PerformClick, true, 1200)];
    var p := Point(100.0, 200.0);
    var s1 := Service(None, true, None, Fresh);
    var s2 := Service(Some(p), true, None, Cursor(100.0, 200.0, 1100, false, 0.0, 0.0));
    assert Step(Startup, events[0]) == (s1, None);
    assert Step(s1, events[1]) == (s2, Some(Stroke([p], MoveStrokeMs)));
    assert Step(s2, events[2]) == (s2, Some(Stroke([p, p], ClickStrokeMs)));
    var tail := events[1..];
    assert tail[0] == events[1] && tail[1..] == [events[2]] && tail[1..][1..] == [];
    assert Run(s2, tail[1..]).1 == [Stroke([p, p], ClickStrokeMs)];
    assert Run(s1, tail).1 == [Stroke([p], MoveStrokeMs), Stroke([p, p], ClickStrokeMs)];
  }

  lemma NegativeReplayAsWritten()
    ensures var events := [Event(MoveCursor(-1.0, -1.0), true, 1000), Event(ServiceConnected, true, 1010)];
            var s1 := StepAsWritten(Startup, events[0]).0;
            var r := StepAsWritten(s1, events[1]);
            && r.1 == Some(Stroke([Point(-1.0, -1.0)], MoveStrokeMs))
            && !StrokeOk(r.1.value)
            && Run(Startup, events).1 == []
  {
    var events := [Event(MoveCursor(-1.0, -1.0), true, 1000), Event(ServiceConnected, true, 1010)];
    var s1 := Step(Startup, events[0]).0;
    assert s1 == Startup.(pending := Some(Point(-1.0, -1.0)));
    assert Run(s1, events[1..]).1 == [] by {
      assert events[1..] == [events[1]];
      assert Step(s1, events[1]).1 == None;
    }
  }
}

=== FILE: tracking_calculator.dfy ===
/**
 Position mapping: the position-effect inputs and the distance proxy of one frame
 become a screen coordinate. Each axis is an affine map around the screen centre,
 scaled by a range amplifier, a distance amplifier and a movement multiplier, and
 clamped to the screen.
 */
module TrackingCalculator {
  import opened Common
  import opened EyeTracker

  /** The mapping settings, read on every call. */
  datatype MappingConfig = MappingConfig(
    eyePositionXEffect: real,
    eyePositionXMultiplier: real,
    eyePositionYEffect: real,
    eyePositionYMultiplier: real,
    distanceXMultiplier: real,
    distanceYMultiplier: real,
    xMovementMultiplier: real,
    yMovementMultiplier: real)

  /** The settings of one axis. */
  datatype AxisConfig = AxisConfig(effect: real, multiplier: real, distanceMultiplier: real,
                                   movementMultiplier: real)

  function AxisOf(config: MappingConfig, axis: Axis): AxisConfig {
    if axis == X then
      AxisConfig(config.eyePositionXEffect, config.eyePositionXMultiplier,
                 config.distanceXMultiplier, config.xMovementMultiplier)
    else
      AxisConfig(config.eyePositionYEffect, config.eyePositionYMultiplier,
                 config.distanceYMultiplier, config.yMovementMultiplier)
  }

  /** Range amplifier: 1 while the effect is off, otherwise 1 + effect·multiplier. The
      extra range it adds is proportional to the effect, so the special case for a zero
      effect agrees with the general formula. */
  function RangeMultiplier(effect: real, multiplier: real): (m: real)
    ensures effect == 0.0 ==> m == 1.0
    ensures multiplier == 0.0 ==> m == 1.0
    ensures effect >= 0.0 && multiplier >= 0.0 ==> m >= 1.0
    ensures m - 1.0 == effect * multiplier
  {
    if effect == 0.0 then 1.0 else 1.0 + effect * multiplier
  }

  /** Distance amplifier: 1 while the multiplier is off, otherwise 1 + distance·multiplier. */
  function DistanceRange(distance: real, distanceMultiplier: real): (m: real)
    ensures distanceMultiplier == 0.0 ==> m == 1.0
    ensures distance == 0.0 ==> m == 1.0
    ensures distance >= 0.0 && distanceMultiplier >= 0.0 ==> m >= 1.0
    ensures m - 1.0 == distance * distanceMultiplier
  {
    if distanceMultiplier == 0.0 then 1.0 else 1.0 + distance * distanceMultiplier
  }

  /** Movement away from the centre after both amplifiers, in screen fractions. */
  function FinalMovement(position: real, distance: real, c: AxisConfig): real {
    (position - 0.5) * RangeMultiplier(c.effect, c.multiplier) * DistanceRange(distance, c.distanceMultiplier)
  }

  /** Pixel offset from the screen centre. */
  function Offset(position: real, distance: real, c: AxisConfig, size: nat): real {
    FinalMovement(position, distance, c) * c.movementMultiplier * (size as real)
  }

  /** One axis of `calculateAdjustedPosition`. */
  function AxisPosition(position: real, distance: real, c: AxisConfig, size: nat): (r: real)
    ensures 0.0 <= r <= size as real
    ensures position == 0.5 ==> r == (size as real) / 2.0
  {
    Clamp((size as real) / 2.0 + Offset(position, distance, c, size), 0.0, size as real)
  }

  /** `calculateAdjustedPosition`: the clamped screen coordinate of a tracking result.
      Each coordinate is computed from its own axis only. */
  function CalculateAdjustedPosition(result: TrackingResult, config: MappingConfig, display: Display)
    : (p: (real, real))
    ensures 0.0 <= p.0 <= display.widthPixels as real
    ensures 0.0 <= p.1 <= display.heightPixels as real
    ensures p.0 == AxisPosition(result.eyePositionX, result.eyeArea, AxisOf(config, X), display.widthPixels)
    ensures p.1 == AxisPosition(result.eyePositionY, result.eyeArea, AxisOf(config, Y), display.heightPixels)
  {
    (AxisPosition(result.eyePositionX, result.eyeArea, AxisOf(config, X), display.widthPixels),
     AxisPosition(result.eyePositionY, result.eyeArea, AxisOf(config, Y), display.heightPixels))
  }

  /** With every amplifier off and unit movement multiplier, the mapping is the plain
      scaling of the normalized position to the screen, clamped. */
  lemma PassThrough(position: real, distance: real, c: AxisConfig, size: nat)
    requires c.effect == 0.0 && c.distanceMultiplier == 0.0 && c.movementMultiplier == 1.0
    ensures AxisPosition(position, distance, c, size) == Clamp(position * (size as real), 0.0, size as real)
  {
    var s := size as real;
    assert s / 2.0 + (position - 0.5) * 1.0 * 1.0 * 1.0 * s == position * s;
  }

  /** The X coordinate depends on nothing of the Y side: two calls that agree on the X
      position, the distance proxy, the X settings and the width agree on X. */
  lemma XIndependentOfY(r1: TrackingResult, r2: TrackingResult, c1: MappingConfig, c2: MappingConfig,
                        d1: Display, d2: Display)
    requires r1.eyePositionX == r2.eyePositionX && r1.eyeArea == r2.eyeArea
    requires AxisOf(c1, X) == AxisOf(c2, X) && d1.widthPixels == d2.widthPixels
    ensures CalculateAdjustedPosition(r1, c1, d1).0 == CalculateAdjustedPosition(r2, c2, d2).0
  {
  }

  /** Amplification scales the range of motion without moving the centre, and so with a
      non-negative overall gain it keeps the order of positions. */
  lemma AxisPositionMonotone(p1: real, p2: real, distance: real, c: AxisConfig, size: nat)
    requires p1 <= p2
    requires RangeMultiplier(c.effect, c.multiplier) * DistanceRange(distance, c.distanceMultiplier)
             * c.movementMultiplier >= 0.0
    ensures AxisPosition(p1, distance, c, size) <= AxisPosition(p2, distance, c, size)
  {
    OffsetMonotone(p1, p2, distance, c, size);
    var center := (size as real) / 2.0;
    ClampMonotone(center + Offset(p1, distance, c, size), center + Offset(p2, distance, c, size), 0.0, size as real);
  }

  lemma OffsetMonotone(p1: real, p2: real, distance: real, c: AxisConfig, size: nat)
    requires p1 <= p2
    requires RangeMultiplier(c.effect, c.multiplier) * DistanceRange(distance, c.distanceMultiplier)
             * c.movementMultiplier >= 0.0
    ensures Offset(p1, distance, c, size) <= Offset(p2, distance, c, size)
  {
    var r, d := RangeMultiplier(c.effect, c.multiplier), DistanceRange(distance, c.distanceMultiplier);
    ScaledOrder(p1 - 0.5, p2 - 0.5, r, d, c.movementMultiplier, size as real);
  }

  lemma ScaledOrder(a: real, b: real, r: real, d: real, m: real, s: real)
    requires a <= b && r * d * m >= 0.0 && s >= 0.0
    ensures a * r * d * m * s <= b * r * d * m * s
  {
    var g := r * d * m;
    assert a * r * d * m * s == a * g * s;
    assert b * r * d * m * s == b * g * s;
    assert (b - a) * g * s >= 0.0 by {
      assert (b - a) * g >= 0.0;
    }
  }

  /** With a non-negative multiplier, a larger effect never narrows the range. */
  lemma RangeMultiplierMonotone(e1: real, e2: real, multiplier: real)
    requires e1 <= e2 && multiplier >= 0.0
    ensures RangeMultiplier(e1, multiplier) <= RangeMultiplier(e2, multiplier)
  {
    assert (e2 - e1) * multiplier >= 0.0;
  }

  /** An effect of 1 with multiplier 1 doubles the range, so a movement of 0.2 from the
      centre becomes 0.4 when nothing else amplifies it. */
  lemma RangeAmplificationExample()
    ensures RangeMultiplier(1.0, 1.0) == 2.0
    ensures FinalMovement(0.7, 0.25, AxisConfig(1.0, 1.0, 0.0, 1.0)) == 0.4
  {
  }

  /** A distance multiplier of 2 at distance 0.25 widens the range by 1.5, so a movement
      of 0.2 becomes 0.3 when nothing else amplifies it. */
  lemma DistanceAmplificationExample()
    ensures DistanceRange(0.25, 2.0) == 1.5
    ensures FinalMovement(0.7, 0.25, AxisConfig(0.0, 5.0, 2.0, 1.0)) == 0.3
  {
  }
}
